=== FILE: README.md ===
# json-mini in Dafny

A model of the core of json-mini, a small C++ reader and writer for a
restricted subset of JSON objects. The subset has no arrays, no literals and
no escapes. The pipeline has three stages:

- `JsonLexer::scan` turns text into a vector of `JsonToken`s
  (`{ } : ,`, string values, numbers).
- `JsonParser::parse` turns tokens into a tree of `JsonGroup`,
  `JsonString` and `JsonNumber` objects. A group the parser creates itself
  is named `"__ROOT__"`.
- `JsonParser::to_string` prints such a tree back as indented text.

The model follows the code, including its quirks:

- A number token starts with the character before its digits.
- The character that ends a digit run is never looked at.
- Any lexical error gives an empty token list.
- Braces need not balance.
- A nested group is cut out of the token vector destructively.
- A group field named `__ROOT__` cannot be told apart from a group the
  parser made: as the sole field it is unwrapped into the document itself.

## Modules

| file | module | what it holds |
|---|---|---|
| wrappers.dfy | `Wrappers` | `Option` and `Result` |
| lexer.dfy | `Lexer` | Tokens; one loop iteration (`Step`); the scan as a recursive function (`LexAt`, `Lex`, `Scanned`) and as the loop with its `start`/`end` cursors (`Scan`) |
| numbers.dfy | `Numbers` | `std::stoi` on a token's content and the decimal printing of an `int` |
| parser.dfy | `Parser` | The value tree; `ExtractFromTo`; the brace-depth scan; `Parse` with its loop `ParseFrom` and group block `ParseGroup`; the renderer `ToString` |
| reference.dfy | `Reference` | A read-only parser that skips a nested group rather than cutting it out, proved equal to `Parse` |
| printedtokens.dfy | `PrintedTokens` | The tokens of a printed tree; the proof that `Parse` rebuilds the tree from them |
| printedtext.dfy | `PrintedText` | The proof that the text `ToString` prints scans to those tokens |
| roundtrip.dfy | `RoundTrip` | Print, then scan, then parse gives back the tree |
| examples.dfy | `Examples` | Concrete inputs on the edges of the scanner and the parser |

On some inputs the code behaves as follows, and so does the model:

- `{"a": 1}` scans to four tokens. The `}` right after the digit ends the
  digit run and is skipped (`Examples.NumberSwallowsBrace`).
- A `,` right after a number is lost the same way, which is harmless: the
  tokens of `{"a": 1, "b": "x"}` still parse to both fields
  (`Examples.CommaAfterNumber`). The printed form relies on this
  (`PrintedText.LexFields`).
- A lost `}` that was meant to close a group is harmful. In
  `{"a": {"b": 1}}` the outer `}` closes the inner group, whose tokens then
  end after `"b":`. The C++ reads past the end of that token vector, which
  is undefined behaviour; the model gives the failure `UnexpectedEnd`
  (`Examples.NestedNumberFails`).
- An unmatched `{` is no error (`Examples.UnmatchedBrace`).
- A number token can carry a sign or leading zeros: `" 1-5 }"` scans to
  `" 1"`, `"-5"` and `}`. A signed token always follows another number
  token, so `parse` passes over it and scanned text never yields a negative
  number field. Only a token vector built by hand puts `"-5"` after a name,
  where it reads as -5 (`Examples.NegativeNumber`).

Error outcomes the C++ does not name get constructors of `ParseError`:

- `UnexpectedEnd` is a read of `tokens[i]` past the end. That read is
  undefined behaviour in C++.
- `InvalidNumber` is `std::stoi` throwing.
- `MalformedField` is the `assert(false)`.
- `DoubleNaming` is the double-naming branch. It is proved unreachable.

## Model

| member | source | states |
|---|---|---|
| Lexer.StepCases | include/json/lexer.hpp:58-114 | What one iteration does in each case. Space, tab, CR and LF emit nothing. `{ } : ,` each emit one token of their kind holding that character. A quote either emits exactly the characters up to the next quote or fails with `UnterminatedString`, and it fails exactly when no quote follows. A digit either emits the character before it followed by the maximal digit run, resuming one past the character that ended the run, or fails with `TrailingNumber`, and it fails exactly when the run reaches the end. Any other character fails naming itself. |
| Lexer.Step | include/json/lexer.hpp:59-114 | One loop iteration either stops, or emits at most one token and resumes strictly further on without passing the end. `StepCases` gives each case, and `ScanIteration` is proved to do the same as the loop body as written. |
| Lexer.StepWellFormed | include/json/lexer.hpp:59-113 | Every token one iteration emits has its kind's shape: punctuation holds its own character, a string holds no quote, a number is one character followed by digits. |
| Lexer.LexAtWellFormed | include/json/lexer.hpp:58-116 | Every token of a successful scan has its kind's shape. |
| Lexer.LexAtLength | include/json/lexer.hpp:58 | A successful scan never yields more tokens than it has characters. |
| Lexer.LexAtTrailingDigit | include/json/lexer.hpp:61-69 | A successful scan never ends on a digit. A `TrailingNumber` failure always does. |
| Lexer.LexAtUnknown | include/json/lexer.hpp:60-75 | An `UnknownCharacter` failure names a character of the input that is not a digit, white space, punctuation or a quote. |
| Lexer.LexAt | include/json/lexer.hpp:58-116 | The scan from one iteration to the end of the input. It has no contract of its own. `Scan` is proved to compute it with the cursor loop as written, and `LexAtLength`, `LexAtWellFormed`, `LexAtTrailingDigit` and `LexAtUnknown` state its properties. |
| Lexer.Lex | include/json/lexer.hpp:56-116 | The whole scan, with the error kept. `Scan` returns its tokens on success. `RoundTrip.LexDocument` shows it succeeds on every printed document of printable fields. |
| Lexer.Scanned | include/json/lexer.hpp:56-116 | What `scan` returns: the tokens of `Lex`, or the empty vector on any error. `Scan`'s contract is this, and `Examples.OpenString` shows an error giving `[]`. |
| Lexer.Scan | include/json/lexer.hpp:56-116 | The cursor loop returns exactly the tokens of `Lex`, and the empty sequence on every error. Its invariant keeps `start == end - 1` at the top of each iteration after the first. |
| Lexer.ScanIteration | include/json/lexer.hpp:59-114 | One loop body fails exactly when `Step` stops. Otherwise it appends `Step`'s tokens, leaves `end` one before where `Step` resumes, and sets `start` to `end`. |
| Lexer.IsDigit | include/json/lexer.hpp:124-126 | `is_digit`: holds for `'0'` to `'9'` and nothing else. It has no contract of its own; the digit cases of `Lexer.StepCases` and `Lexer.DigitRunEnd` state what the scan does with it. |
| Lexer.DigitRunEnd | include/json/lexer.hpp:63-65 | The end of the maximal digit run from its start: every character before it is a digit, and it is the end of the input or a non-digit. `Lexer.DigitRunEndUnique` shows no other index has both properties. |
| Lexer.QuoteEnd | include/json/lexer.hpp:104-106 | The first `"` at or after its start, or the end of the input when none follows. `Lexer.QuoteEndUnique` shows no other index qualifies. |
| Lexer.SkipToQuote | include/json/lexer.hpp:104-106 | The inner loop stops at the first quote at or after its start, or at the end. |
| Lexer.SkipDigits | include/json/lexer.hpp:62-65 | The inner loop stops just past the maximal digit run. |
| Numbers.Decimal | include/json/parser.hpp:214 | The printed digits of a non-negative number read back as that number and have no leading zero. |
| Numbers.IntToString | include/json/parser.hpp:214 | How an `int` is streamed. `Numbers.StoIIntToString` reads every printed `int` back, negative ones included. |
| Numbers.StoIRange | include/json/parser.hpp:138 | The range check of `std::stoi`: after white space, the digits of any natural number n read back as n exactly when n fits a 32-bit `int`, and with a `-` in front as -n exactly when -n fits. Otherwise the conversion throws. |
| Numbers.StoI | include/json/parser.hpp:138 | A conversion that succeeds yields a value in the range of a 32-bit `int`. |
| Numbers.StoIDecimal | include/json/parser.hpp:138 | `stoi` of a white-space character followed by a printed non-negative `int` gives the `int` back. |
| Numbers.StoIToken | include/json/parser.hpp:138 | `stoi` on every content a number token can have: one character then digits, or a lone digit. After white space or `+` the digits are read, after `-` they are negated, and a leading digit is read with them. Any other first character fails, and so does a value outside `int`. |
| Numbers.StoINoDigits | include/json/parser.hpp:138 | White space, an optional sign, then no digit: `stoi` fails. |
| Numbers.StoIIntToString | include/json/parser.hpp:138 | `stoi` of a white-space character followed by any printed `int` gives the `int` back. |
| Numbers.StoIRejects | include/json/parser.hpp:138 | `stoi` fails on a content whose first character is not white space, a sign or a digit, such as a number token that starts with `:`. |
| Parser.ExtractFromTo | include/json/parser.hpp:84-95 | Returns `tokens[from..to]` and leaves `tokens[..from] + tokens[to..]`. Putting the extraction back restores the vector. An empty range changes nothing. |
| Parser.ScanDepth | include/json/parser.hpp:107-116 | The brace-depth loop stops within the tokens, and moves past at least one token when it starts at positive depth with tokens left. `ScanDepthFacts` and `ClosingBrace` state where it stops. |
| Parser.ScanDepthFacts | include/json/parser.hpp:107-116 | The depth scan ends at its start depth plus the balance of the tokens it passed. It passes them at positive depth. It stops at depth 0 just after a `}`, or at the end of the tokens. |
| Parser.ClosingBrace | include/json/parser.hpp:106-120 | After a `{`: when the scan ends at depth 0, the token before the stop is `}`, the span between holds as many `{` as `}`, and no prefix of it closes more than it opens. Otherwise the scan ran to the end. |
| Parser.Wrap | include/json/parser.hpp:176-183 | The result of one `parse` call is a group named `__ROOT__`. A single collected group named `__ROOT__` is returned itself. Anything else is wrapped in a new `__ROOT__` group holding the collected objects. |
| Parser.Parse | include/json/parser.hpp:102-184 | A successful parse always gives a group named `__ROOT__`. |
| Parser.ParseFrom | include/json/parser.hpp:104-175 | The loop only appends objects. It never fails with the double-naming error. |
| Parser.ParseGroup | include/json/parser.hpp:105-126 | The nested-group block only appends objects. It never fails with the double-naming error, because a nested parse always gives a group named `__ROOT__`. |
| Parser.Attach | include/json/parser.hpp:162-170 | What the group block keeps of a nested result. It has no contract of its own. `ParseGroup` states that its double-naming outcome never happens. `PrintedTokens.ParseGroupTokens` and `Examples.RootNameCollision` show a `__ROOT__` group taking the field's name. |
| Parser.Tabs | include/json/parser.hpp:196 | The indentation is exactly `n` tab characters. |
| Parser.ToString | include/json/parser.hpp:192-217 | The renderer. It has no contract of its own. Its partner is the round trip `RoundTrip.PrintScanParse`. `PrintedText.GroupLayout`, `LexStringField`, `LexNumberField` and `LexGroup` scan each printed form, and `RoundTrip.DocumentLayout` gives the root's layout. |
| Parser.FieldsToString | include/json/parser.hpp:201-209 | The children of a group, separated by `,` and a newline, the last one followed by a newline. It has no contract of its own. `PrintedText.LexFields` shows this text scans to the children's tokens. |
| Reference.ParseEquivalence | include/json/parser.hpp:102-184 | Cutting a group out of the vector and resuming on the brace that takes its place gives the same result as parsing read-only and resuming after the matching `}`. This holds for every token sequence. |
| Reference.ParseFromEquivalence | include/json/parser.hpp:104-175 | The same for the loop from any index and any objects collected so far. |
| Reference.FieldEquivalence | include/json/parser.hpp:127-174 | The same when the cursor is on a name. |
| Reference.GroupEquivalence | include/json/parser.hpp:141-161 | The same for the nested-group block, whether or not the group has a name. |
| Reference.ScanDepthShift | include/json/parser.hpp:109-116 | The depth scan depends only on the tokens from its start index on. |
| Reference.PassOver | include/json/parser.hpp:104-105 | `}`, `:`, `,` and number tokens met where a field could start are passed over without effect. |
| Reference.PassOverParse | include/json/parser.hpp:102-184 | So a document parses the same with or without such tokens in front. |
| PrintedTokens.ScanToClosingBrace | include/json/parser.hpp:143-152 | After `"name": {`, the depth scan over a printed group's fields stops just past the `}` that ends them. |
| PrintedTokens.WrapPrintable | include/json/parser.hpp:176-183 | Printable fields are never the parser's own single root group, so they get wrapped. |
| PrintedTokens.ParseValueTokens | include/json/parser.hpp:127-170 | The tokens of one printed field parse back to that field. |
| PrintedTokens.ParseNumberTokens | include/json/parser.hpp:137-138 | The tokens of a printed number field parse back to the field. |
| PrintedTokens.ParseGroupTokens | include/json/parser.hpp:141-167 | The tokens of a printed nested group parse back to the group, under its own name. |
| PrintedTokens.ParseGroupBody | include/json/parser.hpp:143-167 | After `"name": {`, the group's fields up to the matching `}` parse to the named group, and the parse goes on after the `}`. |
| PrintedTokens.ParseNestedFields | include/json/parser.hpp:102-184 | The tokens of printed fields, parsed on their own, give a `__ROOT__` group holding them. |
| PrintedTokens.ParseFieldsTokens | include/json/parser.hpp:104-175 | The tokens of printed fields parse back to those fields, in order, after the objects already collected. |
| PrintedTokens.ParseDocument | include/json/parser.hpp:102-184 | The tokens of a printed document of printable fields parse back to its root group. |
| PrintedText.GroupLayout | include/json/parser.hpp:194-210 | Where the pieces of a printed named group sit: name, `{` and newline, the fields, indentation, `}`. |
| PrintedText.LexBlank | include/json/lexer.hpp:76-84 | A run of white space scans to no tokens. |
| PrintedText.LexPunctuation | include/json/lexer.hpp:85-100 | A brace, colon or comma scans to its one token. |
| PrintedText.LexQuoted | include/json/lexer.hpp:101-113 | A quoted text without inner quotes scans to one string token holding that text. |
| PrintedText.LexDigits | include/json/lexer.hpp:61-72 | Digits after a space, followed by a non-digit, scan to one number token that starts with the space. The scan resumes past the non-digit. |
| PrintedText.LexStringField | include/json/parser.hpp:211-212 | A printed string field scans to name, colon and value. |
| PrintedText.LexNumberField | include/json/parser.hpp:213-214 | A printed number field scans to name, colon and a number token holding the space and the digits. |
| PrintedText.LexGroup | include/json/parser.hpp:194-210 | A printed nested group scans to name, colon, `{`, its fields' tokens and `}`. |
| PrintedText.LexFields | include/json/parser.hpp:201-209 | The printed fields of a group scan to their tokens. The comma after a number field is lost, because it ends the digit run. |
| RoundTrip.DocumentLayout | include/json/parser.hpp:194-210 | The root group prints without a name and without indentation. |
| RoundTrip.LexDocument | include/json/lexer.hpp:56-116 | A printed document of printable fields scans without error to the document's tokens. |
| RoundTrip.PrintScanParse | include/json/parser.hpp:192-217 | Printing a tree of printable fields, scanning the text and parsing the tokens gives back the same tree. |
| Examples.NumberSwallowsBrace | include/json/lexer.hpp:61-72 | `{"a": 1}` scans to four tokens. The `}` after the digit is lost, and the number token is `" 1"`. |
| Examples.NumberAfterColon | include/json/lexer.hpp:57-71 | In `{"n":5 }` the number token is `":5"`. |
| Examples.OpenString | include/json/lexer.hpp:104-110 | An unterminated string fails, and the scan hands back no tokens. |
| Examples.NumberAtEnd | include/json/lexer.hpp:66-69 | A digit run that reaches the end of the input fails. |
| Examples.ByteAfterDigit | include/json/lexer.hpp:58-75 | On the bytes of `1é `, the first byte of `é` is skipped after the digit and the second one fails as an unknown character. |
| Examples.NestedNumberTokens | include/json/lexer.hpp:56-116 | `{"a": {"b": 1}}` scans to eight tokens. The inner `}` is lost. |
| Examples.NumberAfterColonFails | include/json/parser.hpp:137-138 | A number token starting with `:` makes the parse fail. |
| Examples.NestedNumberFails | include/json/parser.hpp:141-161 | The tokens of `{"a": {"b": 1}}` do not parse. The outer `}` closes the inner group, whose parse runs out of tokens after `"b":`. |
| Examples.TwoFields | include/json/parser.hpp:104-183 | The tokens of `{"a": "x", "b": 2 }`, with a space before `}`, parse to a root group holding the two fields. |
| Examples.UnmatchedBrace | include/json/parser.hpp:109-126 | An unmatched `{` is no error. The group runs to just before the last token. |
| Examples.BraceAtEnd | include/json/parser.hpp:117-119 | A `{` as the last token ends the parse with what was read so far. |
| Examples.RootNameCollision | include/json/parser.hpp:162-181 | A field group named `__ROOT__` parses as if its fields stood at the top level. Its name is lost. |
| Examples.CommaAfterNumber | include/json/parser.hpp:104-183 | The tokens of `{"a": 1, "b": "x"}`, whose comma was lost with the digit run, parse to both fields in order. |
| Examples.LeadingZero | include/json/parser.hpp:137-138 | The number token `" 07"` reads as 7. |
| Examples.NegativeNumber | include/json/parser.hpp:137-138 | The number token `"-5"`, placed after a name in a hand-built token vector, reads as -5. |
| Examples.MissingColon | include/json/parser.hpp:131-134 | A name that is not followed by a colon is an error. |

## Left out

- Reading the file and the `runtime_error` when it cannot be opened
  (include/json/lexer.hpp:46-53). This is I/O. The model starts from the text
  in memory.
- `print_tokens`, `print_json_object` and every message written to
  `std::cout`. These are console output only. Which error the scanner hit is
  kept in `Lex`, while `Scanned` forgets it as `scan` does.
- test/test.cpp, the command-line entry point. It is not part of this model.
- Lexer.Step: the text is the file's bytes, one `char` per byte, as the
  `std::string` holds them. So a UTF-8 character is several `char`s, and
  the byte after a digit run is what gets skipped (`Examples.ByteAfterDigit`).
  The model does not restrict `char`s to the range 0-255. A `char` above
  255 cannot come from the file, and the model would treat it as one
  character rather than several bytes.
- Parser.Value: `NumberField` holds an unbounded `int`, while
  `JsonNumber::number` is a C++ `int`. Only values that `Numbers.StoI`
  yields are ever stored, and they lie in `[IntMin, IntMax]`.
- `unique_ptr` ownership, virtual destructors and `dynamic_cast`. They become
  the closed datatype `Value` and pattern matching.
- Numbers.StoI: models `std::stoi` as the C library's base-10 conversion:
  - optional white space, an optional sign, at least one digit;
  - anything after the digits is ignored;
  - a value outside the 32-bit range fails.

  The library's locale handling is not modelled.
- Parser.ParseFrom: turns each unchecked `tokens[i]` read past the end into
  `UnexpectedEnd`. That read is undefined behaviour in C++.
- Parser.ParseFrom: treats `assert(false)` as the failure `MalformedField`.
  In a build with assertions off, the C++ would instead go on with the loop.
- RoundTrip.PrintScanParse: covers only printable trees:
  - names and string values without `"`, since the renderer does not escape;
  - numbers from 0 to 2^31-1, since a printed `-` stands where the scanner
    dispatches it, and there it is an unknown character;
  - no nested group named `__ROOT__`, since the renderer prints that one
    without its name.

  The code does not promise a round trip at all.

=== FILE: examples.dfy ===
/**
 * Concrete inputs that show how the scanner and the parser behave on the
 * edges: the character after a number is swallowed, errors empty the token
 * list, braces need not balance, and a field named `__ROOT__` disappears.
 * Each scanning example names its input through a precondition, so that the
 * proof follows the scan piece by piece.
 */
module Examples {
  import opened Wrappers
  import opened Lexer
  import Numbers
  import opened Parser
  import opened PrintedTokens
  import opened PrintedText

  // Scanning.

  /** `{"name": ` emits the brace, the name and the colon; `j` is the index after the space. */
  lemma OpenField(s: string, i: nat, name: string, j: nat)
    requires At(s, i, "{\"" + name + "\": ") && '"' !in name && j == i + |name| + 5
    ensures LexesTo(s, i, [Token(LeftBrace, "{"), Token(StrVal, name), Token(Colon, ":")], j)
  {
    var ts := [Token(LeftBrace, "{"), Token(StrVal, name), Token(Colon, ":")];
    var w := "{\"" + name + "\": ";
    AtSplit(s, i, "{\"" + name, "\": ");
    AtSplit(s, i, "{\"", name);
    AtIndex(s, i, w, 0);
    AtIndex(s, i, w, 1);
    AtIndex(s, i, w, j - 3 - i);
    AtIndex(s, i, w, j - 2 - i);
    AtIndex(s, i, w, j - 1 - i);
    LexPunctuation(s, i, ts[0], i + 1);
    LexQuoted(s, i + 1, name, j - 2);
    LexPunctuation(s, j - 2, ts[2], j - 1);
    LexSpace(s, j - 1, j);
    LexesToChain(s, i, [ts[0]], i + 1, [ts[1]], j - 2, ts[..2]);
    LexesToChain(s, i, ts[..2], j - 2, [ts[2]], j - 1, ts);
    LexesToChain(s, i, ts, j - 1, [], j, ts);
  }

  /** Digits after a space, then two `}`: the first is swallowed with the number, the second emitted. */
  lemma CloseAfterNumber(s: string, i: nat, d: string, j: nat)
    requires 1 <= i && At(s, i, d + "}}") && |d| >= 1 && Numbers.AllDigits(d) && s[i - 1] == ' '
    requires j == i + |d| + 2
    ensures LexesTo(s, i, [Token(Number, " " + d), Token(RightBrace, "}")], j)
  {
    AtSplit(s, i, d, "}}");
    AtIndex(s, i + |d|, "}}", 0);
    AtIndex(s, i + |d|, "}}", 1);
    LexDigits(s, i, d, j - 1);
    LexPunctuation(s, j - 1, Token(RightBrace, "}"), j);
    LexesToChain(s, i, [Token(Number, " " + d)], j - 1, [Token(RightBrace, "}")], j,
                 [Token(Number, " " + d), Token(RightBrace, "}")]);
  }

  /** `{"a": 1}` scans to four tokens: the `}` right after `1` is skipped, and the number holds the space before it. */
  lemma NumberSwallowsBrace(s: string)
    requires s == "{\"a\": 1}"
    ensures Lex(s) == Success([Token(LeftBrace, "{"), Token(StrVal, "a"), Token(Colon, ":"), Token(Number, " 1")])
  {
    var ts := [Token(LeftBrace, "{"), Token(StrVal, "a"), Token(Colon, ":"), Token(Number, " 1")];
    assert s[0..6] == "{\"a\": " && s[6..7] == "1";
    OpenField(s, 0, "a", 6);
    LexDigits(s, 6, "1", 8);
    assert " " + "1" == " 1";
    assert ts[..3] == [Token(LeftBrace, "{"), Token(StrVal, "a"), Token(Colon, ":")];
    LexesToChain(s, 0, ts[..3], 6, [ts[3]], 8, ts);
    assert ts + [] == ts;
  }

  /** Without a space after the colon, the number token starts with the colon. */
  lemma NumberAfterColon(s: string)
    requires s == "{\"n\":5 }"
    ensures Lex(s) == Success([Token(LeftBrace, "{"), Token(StrVal, "n"), Token(Colon, ":"), Token(Number, ":5"), Token(RightBrace, "}")])
  {
    var ts := [Token(LeftBrace, "{"), Token(StrVal, "n"), Token(Colon, ":"), Token(Number, ":5"), Token(RightBrace, "}")];
    assert s[2..3] == "n";
    LexPunctuation(s, 0, ts[0], 1);
    LexQuoted(s, 1, "n", 4);
    LexPunctuation(s, 4, ts[2], 5);
    assert LexesTo(s, 5, [ts[3]], 7) by {
      DigitRunEndUnique(s, 6, 6);
      StepCases(s, 5);
      LexAtUnfold(s, 5);
      assert s[4..6] == ":5";
    }
    LexPunctuation(s, 7, ts[4], 8);
    LexesToChain(s, 0, [ts[0]], 1, [ts[1]], 4, ts[..2]);
    LexesToChain(s, 0, ts[..2], 4, [ts[2]], 5, ts[..3]);
    LexesToChain(s, 0, ts[..3], 5, [ts[3]], 7, ts[..4]);
    LexesToChain(s, 0, ts[..4], 7, [ts[4]], 8, ts);
    assert ts + [] == ts;
  }

  /** An opening quote with no closing one: the scan fails and hands back no tokens. */
  lemma OpenString(s: string)
    requires s == "{\"a\": \"unterminated"
    ensures Lex(s) == Failure(UnterminatedString)
    ensures Scanned(s) == []
  {
    var ts := [Token(LeftBrace, "{"), Token(StrVal, "a"), Token(Colon, ":")];
    assert s[0..6] == "{\"a\": ";
    OpenField(s, 0, "a", 6);
    assert LexAt(s, 6) == Failure(UnterminatedString) by {
      assert s[7..] == "unterminated";
      assert forall m | 7 <= m < |s| :: s[m] == s[7..][m - 7];
      QuoteEndUnique(s, 7, |s|);
      assert Step(s, 6) == Stop(UnterminatedString);
      LexAtUnfold(s, 6);
    }
  }

  /** A digit run that reaches the end of the input is an error. */
  lemma NumberAtEnd(s: string)
    requires s == "\"a\": 12"
    ensures Lex(s) == Failure(TrailingNumber)
  {
    var ts := [Token(StrVal, "a"), Token(Colon, ":")];
    assert s[1..2] == "a";
    LexQuoted(s, 0, "a", 3);
    LexPunctuation(s, 3, ts[1], 4);
    LexSpace(s, 4, 5);
    assert LexAt(s, 5) == Failure(TrailingNumber) by {
      StepCases(s, 5);
      LexAtUnfold(s, 5);
    }
    LexesToChain(s, 0, [ts[0]], 3, [ts[1]], 4, ts);
    LexesToChain(s, 0, ts, 4, [], 5, ts);
  }

  /**
   * The text is the file's bytes, one `char` each. After a digit, the first
   * byte of the two-byte UTF-8 encoding of `é` ends the run and is skipped;
   * the second byte is then an unknown character.
   */
  lemma ByteAfterDigit(s: string)
    requires s == "1\U{C3}\U{A9} "
    ensures Lex(s) == Failure(UnknownCharacter('\U{A9}'))
  {
    DigitRunEndUnique(s, 1, 1);
    assert s[0..1] == "1";
    assert Step(s, 0) == Emit([Token(Number, "1")], 2);
    assert Step(s, 2) == Stop(UnknownCharacter('\U{A9}'));
    LexAtUnfold(s, 0);
    LexAtUnfold(s, 2);
  }

  /** `{"a": {"b": 1}}` scans to eight tokens: the inner `}` is lost. */
  lemma NestedNumberTokens(s: string)
    requires s == "{\"a\": {\"b\": 1}}"
    ensures Lex(s) == Success([Token(LeftBrace, "{"), Token(StrVal, "a"), Token(Colon, ":"), Token(LeftBrace, "{"),
                               Token(StrVal, "b"), Token(Colon, ":"), Token(Number, " 1"), Token(RightBrace, "}")])
  {
    assert s[0..6] == "{\"a\": " && s[6..12] == "{\"b\": " && s[12..15] == "1}}" && s[11] == ' ';
    NestedNumberPieces(s);
  }

  /** The same scan, from the three pieces of the text. */
  lemma NestedNumberPieces(s: string)
    requires |s| == 15 && At(s, 0, "{\"a\": ") && At(s, 6, "{\"b\": ") && At(s, 12, "1}}") && s[11] == ' '
    ensures Lex(s) == Success([Token(LeftBrace, "{"), Token(StrVal, "a"), Token(Colon, ":"), Token(LeftBrace, "{"),
                               Token(StrVal, "b"), Token(Colon, ":"), Token(Number, " 1"), Token(RightBrace, "}")])
  {
    var ts := [Token(LeftBrace, "{"), Token(StrVal, "a"), Token(Colon, ":"), Token(LeftBrace, "{"),
               Token(StrVal, "b"), Token(Colon, ":"), Token(Number, " 1"), Token(RightBrace, "}")];
    OpenField(s, 0, "a", 6);
    OpenField(s, 6, "b", 12);
    assert "1" + "}}" == "1}}";
    CloseAfterNumber(s, 12, "1", 15);
    assert " " + "1" == " 1";
    assert ts[..3] == [Token(LeftBrace, "{"), Token(StrVal, "a"), Token(Colon, ":")];
    assert ts[3..6] == [Token(LeftBrace, "{"), Token(StrVal, "b"), Token(Colon, ":")];
    assert ts[6..] == [Token(Number, " 1"), Token(RightBrace, "}")];
    LexesToChain(s, 0, ts[..3], 6, ts[3..6], 12, ts[..6]);
    LexesToChain(s, 0, ts[..6], 12, ts[6..], 15, ts);
    assert ts + [] == ts;
  }

  // Parsing.

  /** `stoi` rejects a number token that starts with a colon. */
  lemma NumberAfterColonFails()
    ensures Parse([Token(LeftBrace, "{"), Token(StrVal, "n"), Token(Colon, ":"), Token(Number, ":5"), Token(RightBrace, "}")])
            == Failure(InvalidNumber)
  {
    var ts := [Token(LeftBrace, "{"), Token(StrVal, "n"), Token(Colon, ":"), Token(Number, ":5"), Token(RightBrace, "}")];
    var g := [Token(StrVal, "n"), Token(Colon, ":"), Token(Number, ":5")];
    Numbers.StoIRejects(":5");
    assert Parse(g) == Failure(InvalidNumber);
    assert ScanDepth(ts, 5, 0) == (5, 0);
    assert ScanDepth(ts, 4, 1) == (5, 0);
    assert ScanDepth(ts, 3, 1) == (5, 0);
    assert ScanDepth(ts, 2, 1) == (5, 0);
    assert ScanDepth(ts, 1, 1) == (5, 0);
    assert ts[1..4] == g;
  }

  /**
   * The eight tokens of `{"a": {"b": 1}}`: the outer `}` closes the inner
   * group, and the inner parse runs out of tokens after `"b":`.
   */
  lemma NestedNumberFails()
    ensures Parse([Token(LeftBrace, "{"), Token(StrVal, "a"), Token(Colon, ":"), Token(LeftBrace, "{"),
                   Token(StrVal, "b"), Token(Colon, ":"), Token(Number, " 1"), Token(RightBrace, "}")])
            == Failure(UnexpectedEnd)
  {
    var ts := [Token(LeftBrace, "{"), Token(StrVal, "a"), Token(Colon, ":"), Token(LeftBrace, "{"),
               Token(StrVal, "b"), Token(Colon, ":"), Token(Number, " 1"), Token(RightBrace, "}")];
    var g := ts[1..7];
    var h := [Token(StrVal, "b"), Token(Colon, ":")];
    assert g == [Token(StrVal, "a"), Token(Colon, ":"), Token(LeftBrace, "{"),
                 Token(StrVal, "b"), Token(Colon, ":"), Token(Number, " 1")];
    assert ScanDepth(g, 6, 1) == (6, 1);
    assert ScanDepth(g, 5, 1) == (6, 1);
    assert ScanDepth(g, 4, 1) == (6, 1);
    assert ScanDepth(g, 3, 1) == (6, 1);
    assert g[3..5] == h;
    assert Parse(h) == Failure(UnexpectedEnd);
    assert ExtractFromTo(g, 3, 5).0 == h;
    assert ParseGroup(g, 3, Some("a"), []) == Failure(UnexpectedEnd);
    assert Parse(g) == Failure(UnexpectedEnd);
    assert ScanDepth(ts, 8, 1) == (8, 1);
    assert ScanDepth(ts, 7, 2) == (8, 1);
    assert ScanDepth(ts, 6, 2) == (8, 1);
    assert ScanDepth(ts, 5, 2) == (8, 1);
    assert ScanDepth(ts, 4, 2) == (8, 1);
    assert ScanDepth(ts, 3, 1) == (8, 1);
    assert ScanDepth(ts, 2, 1) == (8, 1);
    assert ScanDepth(ts, 1, 1) == (8, 1);
  }

  /** The tokens of `{"a": "x", "b": 2 }`: with a space before the `}`, a number field parses. */
  lemma TwoFields()
    ensures Parse([Token(LeftBrace, "{"), Token(StrVal, "a"), Token(Colon, ":"), Token(StrVal, "x"), Token(Comma, ","),
                   Token(StrVal, "b"), Token(Colon, ":"), Token(Number, " 2"), Token(RightBrace, "}")])
            == Success(Group(RootName, [StringField("a", "x"), NumberField("b", 2)]))
  {
    var f := [StringField("a", "x"), NumberField("b", 2)];
    ParseDocument(f);
    assert Numbers.IntToString(2) == "2";
    assert " " + Numbers.IntToString(2) == " 2";
    assert f[1..][1..] == [];
    assert FieldsTokens(f[1..]) == ValueTokens(f[1]);
    assert FieldsTokens(f) == ValueTokens(f[0]) + [Token(Comma, ",")] + ValueTokens(f[1]);
    assert ValueTokens(f[0]) == [Token(StrVal, "a"), Token(Colon, ":"), Token(StrVal, "x")];
    assert ValueTokens(f[1]) == [Token(StrVal, "b"), Token(Colon, ":"), Token(Number, " 2")];
    assert DocumentTokens(f) == [Token(LeftBrace, "{"), Token(StrVal, "a"), Token(Colon, ":"), Token(StrVal, "x"), Token(Comma, ","),
                                 Token(StrVal, "b"), Token(Colon, ":"), Token(Number, " 2"), Token(RightBrace, "}")];
  }

  /** An unmatched `{` is no error: the group runs to just before the last token. */
  lemma UnmatchedBrace()
    ensures Parse([Token(LeftBrace, "{"), Token(StrVal, "a"), Token(Colon, ":"), Token(StrVal, "x"), Token(Comma, ",")])
            == Success(Group(RootName, [StringField("a", "x")]))
  {
    var ts := [Token(LeftBrace, "{"), Token(StrVal, "a"), Token(Colon, ":"), Token(StrVal, "x"), Token(Comma, ",")];
    var g := [Token(StrVal, "a"), Token(Colon, ":"), Token(StrVal, "x")];
    var f := [StringField("a", "x")];
    assert ScanDepth(ts, 5, 1) == (5, 1);
    assert ScanDepth(ts, 4, 1) == (5, 1);
    assert ScanDepth(ts, 3, 1) == (5, 1);
    assert ScanDepth(ts, 2, 1) == (5, 1);
    assert ScanDepth(ts, 1, 1) == (5, 1);
    assert ParseFrom(g, 3, f) == Success(f);
    assert [] + f == f;
    assert Parse(g) == Success(Group(RootName, f));
    assert [] + [Group(RootName, f)] == [Group(RootName, f)];
    assert ts[1..4] == g;
    assert ts[..1] + ts[4..] == [Token(LeftBrace, "{"), Token(Comma, ",")];
    assert ExtractFromTo(ts, 1, 4) == (g, [Token(LeftBrace, "{"), Token(Comma, ",")]);
    assert ParseGroup(ts, 1, None, []) == Success([Group(RootName, f)]);
  }

  /** A `{` as the last token ends the parse with what was read so far. */
  lemma BraceAtEnd()
    ensures Parse([Token(StrVal, "a"), Token(Colon, ":"), Token(StrVal, "b"), Token(LeftBrace, "{")])
            == Success(Group(RootName, [StringField("a", "b")]))
  {
    var ts := [Token(StrVal, "a"), Token(Colon, ":"), Token(StrVal, "b"), Token(LeftBrace, "{")];
    var f := [StringField("a", "b")];
    assert ParseFrom(ts, 3, f) == Success(f);
    assert [] + f == f;
  }

  /** A group named `__ROOT__` is taken for the document itself: its name is lost. */
  lemma RootNameCollision()
    ensures Parse([Token(StrVal, RootName), Token(Colon, ":"), Token(LeftBrace, "{"),
                   Token(StrVal, "x"), Token(Colon, ":"), Token(StrVal, "y"), Token(RightBrace, "}")])
            == Parse([Token(StrVal, "x"), Token(Colon, ":"), Token(StrVal, "y")])
            == Success(Group(RootName, [StringField("x", "y")]))
  {
    var ts := [Token(StrVal, RootName), Token(Colon, ":"), Token(LeftBrace, "{"),
               Token(StrVal, "x"), Token(Colon, ":"), Token(StrVal, "y"), Token(RightBrace, "}")];
    var g := [Token(StrVal, "x"), Token(Colon, ":"), Token(StrVal, "y")];
    var f := [StringField("x", "y")];
    var root := Group(RootName, f);
    assert ParseFrom(g, 3, f) == Success(f);
    assert [] + f == f;
    assert Parse(g) == Success(root);
    assert ScanDepth(ts, 7, 0) == (7, 0);
    assert ScanDepth(ts, 6, 1) == (7, 0);
    assert ScanDepth(ts, 5, 1) == (7, 0);
    assert ScanDepth(ts, 4, 1) == (7, 0);
    assert ScanDepth(ts, 3, 1) == (7, 0);
    assert ts[3..6] == g;
    assert ts[..3] + ts[6..] == [Token(StrVal, RootName), Token(Colon, ":"), Token(LeftBrace, "{"), Token(RightBrace, "}")];
    assert [] + [root] == [root];
    assert ParseGroup(ts, 3, Some(RootName), []) == Success([root]);
  }

  /** A name that is not followed by a colon is an error. */
  lemma MissingColon()
    ensures Parse([Token(StrVal, "a"), Token(StrVal, "b")]) == Failure(ExpectedColon)
  {
  }

  /**
   * The tokens of `{"a": 1, "b": "x"}`: the comma after the number is lost
   * with the digit run, and both fields still parse.
   */
  lemma CommaAfterNumber()
    ensures Parse([Token(LeftBrace, "{"), Token(StrVal, "a"), Token(Colon, ":"), Token(Number, " 1"),
                   Token(StrVal, "b"), Token(Colon, ":"), Token(StrVal, "x"), Token(RightBrace, "}")])
            == Success(Group(RootName, [NumberField("a", 1), StringField("b", "x")]))
  {
    var f := [NumberField("a", 1), StringField("b", "x")];
    ParseDocument(f);
    assert Numbers.IntToString(1) == "1";
    assert " " + Numbers.IntToString(1) == " 1";
    assert f[1..][1..] == [];
    assert FieldsTokens(f[1..]) == ValueTokens(f[1]);
    assert FieldsTokens(f) == ValueTokens(f[0]) + [] + ValueTokens(f[1]);
    assert ValueTokens(f[0]) == [Token(StrVal, "a"), Token(Colon, ":"), Token(Number, " 1")];
    assert ValueTokens(f[1]) == [Token(StrVal, "b"), Token(Colon, ":"), Token(StrVal, "x")];
    assert DocumentTokens(f) == [Token(LeftBrace, "{"), Token(StrVal, "a"), Token(Colon, ":"), Token(Number, " 1"),
                                 Token(StrVal, "b"), Token(Colon, ":"), Token(StrVal, "x"), Token(RightBrace, "}")];
  }

  /** A number token with a leading zero, as in `"a": 07 `, reads as its value. */
  lemma LeadingZero()
    ensures Parse([Token(StrVal, "a"), Token(Colon, ":"), Token(Number, " 07")])
            == Success(Group(RootName, [NumberField("a", 7)]))
  {
    Numbers.StoIToken(' ', "07");
    assert [' '] + "07" == " 07";
    assert Numbers.DigitsValue("07") == 7 by {
      assert "07"[..1] == "0";
    }
    var f := [NumberField("a", 7)];
    assert ParseFrom([Token(StrVal, "a"), Token(Colon, ":"), Token(Number, " 07")], 3, f) == Success(f);
    assert [] + f == f;
  }

  /**
   * `" 1-5 }"` scans to the numbers `" 1"` and `"-5"`: the `-` ends the
   * first run and is skipped, then starts the second token. Such a token
   * always follows another number token, so `Parse` passes over it; only a
   * token vector built by hand puts it after a name, where it reads as a
   * negative number.
   */
  lemma NegativeNumber()
    ensures Parse([Token(StrVal, "a"), Token(Colon, ":"), Token(Number, "-5")])
            == Success(Group(RootName, [NumberField("a", -5)]))
  {
    Numbers.StoIToken('-', "5");
    assert ['-'] + "5" == "-5";
    assert Numbers.DigitsValue("5") == 5 by {
      assert "5"[..0] == "";
    }
    var f := [NumberField("a", -5)];
    assert ParseFrom([Token(StrVal, "a"), Token(Colon, ":"), Token(Number, "-5")], 3, f) == Success(f);
    assert [] + f == f;
  }
}

=== FILE: lexer.dfy ===
/**
 * The tokenizer of include/json/lexer.hpp (`JsonLexer::scan` after the file
 * has been read into memory).
 *
 * The scan is a single `for` loop over an `end` cursor with a `start` cursor
 * trailing it. Two quirks of that loop are reproduced on purpose:
 *  - every case sets `start = end` before the loop increment, so at the top of
 *    an iteration `start == end - 1`, and a number token's content begins with
 *    the character just before its digit run;
 *  - after a digit run `end` already points past the run, and the loop
 *    increment then steps over that character without dispatching it.
 * Every lexical error makes `scan` return an empty vector.
 */
module Lexer {
  import opened Wrappers

  datatype TokenType = LeftBrace | RightBrace | Colon | Comma | StrVal | Number

  datatype Token = Token(kind: TokenType, content: string)

  /** Why a scan stopped; the source prints these and returns no tokens. */
  datatype LexError = UnknownCharacter(c: char) | UnterminatedString | TrailingNumber

  /** The ASCII digits, with no locale involved. */
  function IsDigit(c: char): bool {
    '0' <= c <= '9'
  }

  /** The digits are exactly the ten characters of `"0123456789"`. */
  lemma DigitChars(c: char)
    ensures IsDigit(c) <==> c in "0123456789"
  {
  }

  /** The four characters the scan discards. */
  function IsWhitespace(c: char): bool {
    c == '\n' || c == '\t' || c == '\r' || c == ' '
  }

  /** The characters that become a one-character token. */
  function IsPunctuation(c: char): bool {
    c == '{' || c == '}' || c == ':' || c == ','
  }

  function PunctuationKind(c: char): TokenType
    requires IsPunctuation(c)
  {
    if c == '{' then LeftBrace
    else if c == '}' then RightBrace
    else if c == ':' then Colon
    else Comma
  }

  /** Tokens as the scan produces them: punctuation carries its own character,
      a string carries no quote, a number is one arbitrary character followed
      only by digits (or a single digit). */
  predicate WellFormedToken(t: Token) {
    match t.kind
    case LeftBrace => t.content == "{"
    case RightBrace => t.content == "}"
    case Colon => t.content == ":"
    case Comma => t.content == ","
    case StrVal => '"' !in t.content
    case Number =>
      && |t.content| >= 1
      && IsDigit(t.content[|t.content| - 1])
      && forall m | 1 <= m < |t.content| :: IsDigit(t.content[m])
  }

  /** End of the maximal run of digits starting at `p` (the inner `while` after a digit). */
  function DigitRunEnd(s: string, p: nat): (q: nat)
    requires p <= |s|
    ensures p <= q <= |s|
    ensures forall m | p <= m < q :: IsDigit(s[m])
    ensures q == |s| || !IsDigit(s[q])
    decreases |s| - p
  {
    if p < |s| && IsDigit(s[p]) then DigitRunEnd(s, p + 1) else p
  }

  /** Index of the first `"` at or after `p`, or `|s|` (the inner `while` after a quote). */
  function QuoteEnd(s: string, p: nat): (q: nat)
    requires p <= |s|
    ensures p <= q <= |s|
    ensures forall m | p <= m < q :: s[m] != '"'
    ensures q == |s| || s[q] == '"'
    decreases |s| - p
  {
    if p < |s| && s[p] != '"' then QuoteEnd(s, p + 1) else p
  }

  lemma DigitRunEndUnique(s: string, p: nat, q: nat)
    requires p <= q <= |s|
    requires forall m | p <= m < q :: IsDigit(s[m])
    requires q == |s| || !IsDigit(s[q])
    ensures DigitRunEnd(s, p) == q
  {
  }

  lemma QuoteEndUnique(s: string, p: nat, q: nat)
    requires p <= q <= |s|
    requires forall m | p <= m < q :: s[m] != '"'
    requires q == |s| || s[q] == '"'
    ensures QuoteEnd(s, p) == q
  {
  }

  /** Value of `start` at the top of the iteration whose `end` is `i`. */
  function TokenStart(i: nat): nat {
    if i == 0 then 0 else i - 1
  }

  /** Puts `ts` in front of a successful scan; a failure stays a failure. */
  function Prepend<E>(ts: seq<Token>, r: Result<seq<Token>, E>): Result<seq<Token>, E> {
    match r
    case Success(rest) => Success(ts + rest)
    case Failure(e) => Failure(e)
  }

  /** What one iteration of the scan does: emit tokens and resume at `next`, or stop. */
  datatype Move = Emit(tokens: seq<Token>, next: nat) | Stop(error: LexError)

  /** The body of the scanning loop for the iteration whose `end` cursor is `i`. */
  function Step(s: string, i: nat): (m: Move)
    requires i < |s|
    ensures m.Emit? ==> i < m.next <= |s| && |m.tokens| <= 1
  {
    var c := s[i];
    if IsWhitespace(c) then Emit([], i + 1)
    else if IsPunctuation(c) then Emit([Token(PunctuationKind(c), [c])], i + 1)
    else if c == '"' then
      var q := QuoteEnd(s, i + 1);
      if q == |s| then Stop(UnterminatedString)
      else Emit([Token(StrVal, s[i + 1..q])], q + 1)
    else if IsDigit(c) then
      var q := DigitRunEnd(s, i + 1);
      if q == |s| then Stop(TrailingNumber)
      else Emit([Token(Number, s[TokenStart(i)..q])], q + 1)
    else Stop(UnknownCharacter(c))
  }

  /**
   * What one iteration does, case by case. Whitespace emits nothing; a
   * punctuation character emits its own one-character token; a string emits
   * exactly the characters strictly between its quotes, and fails when no
   * closing quote follows; a digit emits the character before it (when there
   * is one) followed by the maximal run of digits, fails when that run reaches
   * the end of the input, and otherwise resumes one past the character that
   * ended the run, so that character is never dispatched; anything else fails
   * naming the character.
   */
  lemma StepCases(s: string, i: nat)
    requires i < |s|
    ensures var m := Step(s, i);
      && (IsWhitespace(s[i]) ==> m == Emit([], i + 1))
      && (IsPunctuation(s[i]) ==>
            m == Emit([Token(PunctuationKind(s[i]), s[i..i + 1])], i + 1))
      && (s[i] == '"' && m.Emit? ==>
            && m.next - 1 > i && s[m.next - 1] == '"'
            && '"' !in s[i + 1..m.next - 1]
            && m.tokens == [Token(StrVal, s[i + 1..m.next - 1])])
      && (s[i] == '"' ==> m.Emit? || m == Stop(UnterminatedString))
      && (s[i] == '"' ==> (m == Stop(UnterminatedString) <==> '"' !in s[i + 1..]))
      && (IsDigit(s[i]) && m.Emit? ==>
            var q := m.next - 1;
            && (forall p | i <= p < q :: IsDigit(s[p]))
            && !IsDigit(s[q])
            && m.tokens == [Token(Number, (if i == 0 then [] else [s[i - 1]]) + s[i..q])])
      && (IsDigit(s[i]) ==> m.Emit? || m == Stop(TrailingNumber))
      && (IsDigit(s[i]) ==>
            (m == Stop(TrailingNumber) <==> forall p | i <= p < |s| :: IsDigit(s[p])))
      && (!IsWhitespace(s[i]) && !IsPunctuation(s[i]) && s[i] != '"' && !IsDigit(s[i]) ==>
            m == Stop(UnknownCharacter(s[i])))
  {
    var c := s[i];
    if IsPunctuation(c) {
      assert [c] == s[i..i + 1];
    } else if c == '"' {
      var q := QuoteEnd(s, i + 1);
      if q < |s| {
        assert s[q] in s[i + 1..];
      }
    } else if IsDigit(c) {
      var q := DigitRunEnd(s, i + 1);
      if q < |s| {
        assert s[TokenStart(i)..q] == (if i == 0 then [] else [s[i - 1]]) + s[i..q];
      }
    }
  }

  /** The scan from the iteration whose `end` cursor is `i` to the end of the input. */
  function LexAt(s: string, i: nat): Result<seq<Token>, LexError>
    requires i <= |s|
    decreases |s| - i
  {
    if i == |s| then Success([])
    else
      match Step(s, i)
      case Stop(e) => Failure(e)
      case Emit(ts, next) => Prepend(ts, LexAt(s, next))
  }

  lemma LexAtUnfold(s: string, i: nat)
    requires i < |s|
    ensures Step(s, i).Stop? ==> LexAt(s, i) == Failure(Step(s, i).error)
    ensures Step(s, i).Emit? ==> LexAt(s, i) == Prepend(Step(s, i).tokens, LexAt(s, Step(s, i).next))
  {
  }

  /** A scan never yields more tokens than it has characters left. */
  lemma {:induction false} LexAtLength(s: string, i: nat)
    requires i <= |s|
    ensures LexAt(s, i).Success? ==> |LexAt(s, i).value| <= |s| - i
    decreases |s| - i
  {
    if i < |s| {
      LexAtUnfold(s, i);
      if Step(s, i).Emit? {
        LexAtLength(s, Step(s, i).next);
      }
    }
  }

  /** Every token of a successful scan has the shape `WellFormedToken` describes. */
  lemma {:induction false} LexAtWellFormed(s: string, i: nat)
    requires i <= |s|
    ensures LexAt(s, i).Success? ==>
              forall k | 0 <= k < |LexAt(s, i).value| :: WellFormedToken(LexAt(s, i).value[k])
    decreases |s| - i
  {
    if i < |s| {
      LexAtUnfold(s, i);
      var m := Step(s, i);
      if m.Emit? {
        LexAtWellFormed(s, m.next);
        StepWellFormed(s, i);
      }
    }
  }

  lemma StepWellFormed(s: string, i: nat)
    requires i < |s| && Step(s, i).Emit?
    ensures forall k | 0 <= k < |Step(s, i).tokens| :: WellFormedToken(Step(s, i).tokens[k])
  {
    var m := Step(s, i);
    var c := s[i];
    if IsWhitespace(c) {
      assert m.tokens == [];
    } else if IsPunctuation(c) || c == '"' {
      assert WellFormedToken(m.tokens[0]);
    } else {
      var q := DigitRunEnd(s, i + 1);
      var t := Token(Number, s[TokenStart(i)..q]);
      assert m == Emit([t], q + 1);
      assert t.content[|t.content| - 1] == s[q - 1];
      assert forall n | 1 <= n < |t.content| :: t.content[n] == s[TokenStart(i) + n];
      assert WellFormedToken(t);
    }
  }

  /**
   * A scan that succeeds never stops on a digit, and a scan that fails with
   * `TrailingNumber` always does: a number may not be the last thing in the
   * input.
   */
  lemma {:induction false} LexAtTrailingDigit(s: string, i: nat)
    requires i < |s|
    ensures LexAt(s, i).Success? ==> !IsDigit(s[|s| - 1])
    ensures LexAt(s, i) == Failure(TrailingNumber) ==> IsDigit(s[|s| - 1])
    decreases |s| - i
  {
    LexAtUnfold(s, i);
    var m := Step(s, i);
    if m.Emit? && m.next < |s| {
      LexAtTrailingDigit(s, m.next);
    }
  }

  /** An `UnknownCharacter` error names a character of the input that no case handles. */
  lemma {:induction false} LexAtUnknown(s: string, i: nat)
    requires i <= |s|
    ensures var r := LexAt(s, i);
      r.Failure? && r.error.UnknownCharacter? ==>
        && r.error.c in s[i..]
        && !IsDigit(r.error.c) && !IsWhitespace(r.error.c)
        && !IsPunctuation(r.error.c) && r.error.c != '"'
    decreases |s| - i
  {
    if i < |s| {
      LexAtUnfold(s, i);
      var m := Step(s, i);
      if m.Emit? {
        LexAtUnknown(s, m.next);
        var r := LexAt(s, i);
        if r.Failure? && r.error.UnknownCharacter? {
          assert r.error.c in s[m.next..];
          assert s[m.next..] == s[i..][m.next - i..];
        }
      } else {
        assert s[i] == s[i..][0];
      }
    }
  }

  /** The whole scan, with the reason for a failure kept. */
  function Lex(s: string): Result<seq<Token>, LexError> {
    LexAt(s, 0)
  }

  /** What `scan` hands back: the tokens, or an empty vector on any error. */
  function Scanned(s: string): seq<Token> {
    match Lex(s)
    case Success(ts) => ts
    case Failure(_) => []
  }

  /**
   * The scanning loop as written, with its `start`/`end` cursor pair. It
   * computes exactly what `Lex` describes and returns the empty sequence on
   * every error.
   */
  method Scan(s: string) returns (tokens: seq<Token>)
    ensures Lex(s).Success? ==> tokens == Lex(s).value
    ensures Lex(s).Failure? ==> tokens == []
  {
    tokens := [];
    var start: nat := 0;
    var end: nat := 0;
    ghost var whole := Lex(s);
    PrependNothing(whole);
    while end < |s|
      invariant end <= |s|
      invariant start == TokenStart(end)
      invariant whole == Prepend(tokens, LexAt(s, end))
    {
      ghost var top := end;
      ghost var before := tokens;
      var ok: bool;
      ok, tokens, start, end := ScanIteration(s, tokens, start, end);
      LexAtUnfold(s, top);
      if !ok {
        assert whole.Failure?;
        return [];
      }
      PrependAppend(before, Step(s, top).tokens, LexAt(s, end + 1));
      end := end + 1;
    }
    assert tokens + [] == tokens;
  }

  /**
   * The body of the `for` loop in `scan`, up to (not including) the loop
   * increment: `ok` is false where the source returns an empty vector.
   */
  method ScanIteration(s: string, tokens: seq<Token>, start: nat, end: nat)
    returns (ok: bool, tokens': seq<Token>, start': nat, end': nat)
    requires end < |s| && start == TokenStart(end)
    ensures !ok <==> Step(s, end).Stop?
    ensures ok ==> && Step(s, end).next == end' + 1
                   && tokens' == tokens + Step(s, end).tokens
                   && start' == end'
  {
    var c := s[end];
    ok, tokens', start', end' := true, tokens, start, end;
    if IsWhitespace(c) {
      start' := end';
      assert tokens' == tokens + [];
    } else if IsPunctuation(c) {
      tokens' := tokens' + [Token(PunctuationKind(c), [c])];
      start' := end';
    } else if c == '"' {
      end' := end' + 1;
      start' := end';
      end' := SkipToQuote(s, end');
      QuoteEndUnique(s, end + 1, end');
      if end' == |s| {
        return false, [], start', end';
      }
      tokens' := tokens' + [Token(StrVal, s[start'..end'])];
      start' := end';
    } else if IsDigit(c) {
      end' := SkipDigits(s, end' + 1);
      DigitRunEndUnique(s, end + 1, end');
      if end' == |s| {
        return false, [], start', end';
      }
      tokens' := tokens' + [Token(Number, s[start'..end'])];
      start' := end';
    } else {
      ok := false;
    }
  }

  /** The inner loop after an opening quote: advances to the closing quote or the end. */
  method SkipToQuote(s: string, from: nat) returns (end: nat)
    requires from <= |s|
    ensures from <= end <= |s|
    ensures forall m | from <= m < end :: s[m] != '"'
    ensures end == |s| || s[end] == '"'
  {
    end := from;
    while end < |s| && s[end] != '"'
      invariant from <= end <= |s|
      invariant forall m | from <= m < end :: s[m] != '"'
    {
      end := end + 1;
    }
  }

  /** The inner loop after a digit: advances past the maximal run of digits. */
  method SkipDigits(s: string, from: nat) returns (end: nat)
    requires from <= |s|
    ensures from <= end <= |s|
    ensures forall m | from <= m < end :: IsDigit(s[m])
    ensures end == |s| || !IsDigit(s[end])
  {
    end := from;
    while end < |s| && IsDigit(s[end])
      invariant from <= end <= |s|
      invariant forall m | from <= m < end :: IsDigit(s[m])
    {
      end := end + 1;
    }
  }

  lemma PrependNothing<E>(r: Result<seq<Token>, E>)
    ensures Prepend([], r) == r
  {
    if r.Success? {
      assert [] + r.value == r.value;
    }
  }

  lemma PrependAppend<E>(a: seq<Token>, b: seq<Token>, r: Result<seq<Token>, E>)
    ensures Prepend(a, Prepend(b, r)) == Prepend(a + b, r)
  {
    if r.Success? {
      assert a + (b + r.value) == (a + b) + r.value;
    }
  }
}

=== FILE: numbers.dfy ===
/**
 * The two integer conversions the parser relies on: `std::stoi` on a number
 * token's content (include/json/parser.hpp:138) and streaming an `int` with
 * `operator<<` when rendering (include/json/parser.hpp:214). Both are library
 * calls; they are modelled here as the C library specifies them for base 10.
 */
module Numbers {
  import opened Wrappers
  import Lexer

  /** Range of a 32-bit `int`. */
  const IntMin: int := -0x8000_0000
  const IntMax: int := 0x7fff_ffff

  function DigitValue(c: char): (d: nat)
    requires Lexer.IsDigit(c)
    ensures d < 10
  {
    c as int - '0' as int
  }

  function DigitChar(d: nat): (c: char)
    requires d < 10
    ensures Lexer.IsDigit(c) && DigitValue(c) == d
  {
    ('0' as int + d) as char
  }

  predicate AllDigits(ds: string) {
    forall k | 0 <= k < |ds| :: Lexer.IsDigit(ds[k])
  }

  /** The value of a run of decimal digits, most significant first. */
  function DigitsValue(ds: string): nat
    requires AllDigits(ds)
  {
    if |ds| == 0 then 0 else DigitsValue(ds[..|ds| - 1]) * 10 + DigitValue(ds[|ds| - 1])
  }

  /** The shortest decimal spelling of `n`; reading it back gives `n`. */
  function Decimal(n: nat): (ds: string)
    ensures |ds| >= 1 && AllDigits(ds)
    ensures DigitsValue(ds) == n
    ensures n > 0 ==> ds[0] != '0'
  {
    if n < 10 then [DigitChar(n)]
    else
      var ds := Decimal(n / 10) + [DigitChar(n % 10)];
      assert ds[..|ds| - 1] == Decimal(n / 10);
      ds
  }

  /** How `operator<<` prints an `int`: a minus sign for negatives, then the digits. */
  function IntToString(n: int): string {
    if n < 0 then "-" + Decimal(-n) else Decimal(n)
  }

  /** The characters `isspace` accepts in the "C" locale. */
  function IsSpace(c: char): bool {
    c == ' ' || c == '\t' || c == '\n' || c == '\U{000B}' || c == '\U{000C}' || c == '\r'
  }

  function SkipSpaces(x: string, p: nat): (q: nat)
    requires p <= |x|
    ensures p <= q <= |x|
    ensures forall m | p <= m < q :: IsSpace(x[m])
    ensures q == |x| || !IsSpace(x[q])
    decreases |x| - p
  {
    if p < |x| && IsSpace(x[p]) then SkipSpaces(x, p + 1) else p
  }

  /** A converted value, or a failure when it does not fit an `int`. */
  function Checked(v: int): (r: Option<int>)
    ensures r.Some? <==> IntMin <= v <= IntMax
    ensures r.Some? ==> r.value == v
  {
    if IntMin <= v <= IntMax then Some(v) else None
  }

  /**
   * `std::stoi(x)`: leading white space, an optional sign, then at least one
   * digit; whatever follows the digits is ignored. No digits, or a value out
   * of the range of `int`, makes the source throw, modelled as `None`.
   */
  function StoI(x: string): (r: Option<int>)
    ensures r.Some? ==> IntMin <= r.value <= IntMax
  {
    var p := SkipSpaces(x, 0);
    var negative := p < |x| && x[p] == '-';
    var d := if p < |x| && (x[p] == '+' || x[p] == '-') then p + 1 else p;
    var q := Lexer.DigitRunEnd(x, d);
    if q == d then None
    else
      var magnitude: int := DigitsValue(x[d..q]);
      Checked(if negative then -magnitude else magnitude)
  }

  lemma SkipSpacesUnique(x: string, p: nat, q: nat)
    requires p <= q <= |x|
    requires forall m | p <= m < q :: IsSpace(x[m])
    requires q == |x| || !IsSpace(x[q])
    ensures SkipSpaces(x, p) == q
    decreases q - p
  {
    if p < q {
      SkipSpacesUnique(x, p + 1, q);
    }
  }

  /**
   * `stoi` on every content a number token can have: one arbitrary
   * character, then digits, or a lone digit. After white space or a `+` the digits are read,
   * after a `-` they are negated, a leading digit is read with them, and any
   * other first character is a failure. A value outside `int` fails too.
   */
  lemma {:induction false} StoIToken(c: char, ds: string)
    requires AllDigits(ds) && (|ds| >= 1 || Lexer.IsDigit(c))
    ensures StoI([c] + ds) ==
      if IsSpace(c) || c == '+' then Checked(DigitsValue(ds))
      else if c == '-' then Checked(-(DigitsValue(ds) as int))
      else if Lexer.IsDigit(c) then Checked(DigitsValue([c] + ds))
      else None
  {
    var x := [c] + ds;
    assert x[1..] == ds;
    if |ds| >= 1 {
      assert !IsSpace(x[1]) && x[1] != '+' && x[1] != '-';
    }
    if IsSpace(c) {
      SkipSpacesUnique(x, 0, 1);
    } else {
      SkipSpacesUnique(x, 0, 0);
    }
    if Lexer.IsDigit(c) {
      Lexer.DigitRunEndUnique(x, 0, |x|);
      assert x[0..|x|] == x;
    } else {
      Lexer.DigitRunEndUnique(x, 1, |x|);
      assert x[1..|x|] == ds;
      if !(IsSpace(c) || c == '+' || c == '-') {
        StoIRejects(x);
      }
    }
  }

  /**
   * The other direction: white space, an optional sign, then anything but a
   * digit makes `stoi` fail.
   */
  lemma {:induction false} StoINoDigits(ws: string, sign: string, rest: string)
    requires forall k | 0 <= k < |ws| :: IsSpace(ws[k])
    requires sign == "" || sign == "+" || sign == "-"
    requires |rest| == 0 || !Lexer.IsDigit(rest[0])
    requires sign == "" && |rest| > 0 ==> !IsSpace(rest[0]) && rest[0] != '+' && rest[0] != '-'
    ensures StoI(ws + sign + rest) == None
  {
    var x := ws + sign + rest;
    var p := |ws|;
    if p < |x| {
      assert x[p] == if sign == "" then rest[0] else sign[0];
    }
    SkipSpacesUnique(x, 0, p);
    var d := p + |sign|;
    if d < |x| {
      assert x[d] == rest[0];
    }
    Lexer.DigitRunEndUnique(x, d, d);
  }

  /** Reading back one white-space character followed by any printed `int`. */
  lemma {:induction false} StoIIntToString(w: char, n: int)
    requires IsSpace(w) && IntMin <= n <= IntMax
    ensures StoI([w] + IntToString(n)) == Some(n)
  {
    if n >= 0 {
      StoIToken(w, Decimal(n));
    } else {
      var x := [w] + IntToString(n);
      assert x == [w] + ['-'] + Decimal(-n);
      assert x[2..] == Decimal(-n);
      assert !IsSpace(x[1]);
      SkipSpacesUnique(x, 0, 1);
      Lexer.DigitRunEndUnique(x, 2, |x|);
      assert x[2..|x|] == Decimal(-n);
    }
  }

  /**
   * The range check of `stoi`: after white space, the digits of `n`, signed
   * or not, read back exactly when the value fits an `int`; otherwise the
   * conversion throws.
   */
  lemma {:induction false} StoIRange(w: char, n: nat)
    requires IsSpace(w)
    ensures StoI([w] + Decimal(n)) == if n <= IntMax then Some(n as int) else None
    ensures StoI([w] + "-" + Decimal(n)) == if n <= -IntMin then Some(-(n as int)) else None
  {
    StoIToken(w, Decimal(n));
    var x := [w] + "-" + Decimal(n);
    assert x[2..] == Decimal(n);
    assert !IsSpace(x[1]);
    SkipSpacesUnique(x, 0, 1);
    Lexer.DigitRunEndUnique(x, 2, |x|);
    assert x[2..|x|] == Decimal(n);
  }

  /** Reading back one white-space character followed by a printed non-negative `int`. */
  lemma StoIDecimal(w: char, n: nat)
    requires IsSpace(w) && n <= IntMax
    ensures StoI([w] + Decimal(n)) == Some(n)
  {
    var x := [w] + Decimal(n);
    assert !IsSpace(x[1]);
    assert SkipSpaces(x, 1) == 1;
    assert SkipSpaces(x, 0) == 1;
    assert !(x[1] == '+' || x[1] == '-');
    Lexer.DigitRunEndUnique(x, 1, |x|);
    assert x[1..|x|] == Decimal(n);
  }

  /** A content starting with a character that is neither white space, a sign nor a digit makes `stoi` throw. */
  lemma StoIRejects(x: string)
    requires |x| > 0 && !IsSpace(x[0]) && !Lexer.IsDigit(x[0]) && x[0] != '+' && x[0] != '-'
    ensures StoI(x) == None
  {
    assert SkipSpaces(x, 0) == 0;
    assert Lexer.DigitRunEnd(x, 0) == 0;
  }
}

=== FILE: parser.dfy ===
/**
 * The parser and renderer of include/json/parser.hpp.
 *
 * The class hierarchy `JsonObject` / `JsonGroup` / `JsonString` /
 * `JsonNumber` becomes the closed datatype `Value`. `Parse` follows
 * `JsonParser::parse` literally, including its destructive use of
 * `extract_from_to` on the token vector; the read-only reference it is proved
 * equal to lives in module `Reference`.
 */
module Parser {
  import opened Wrappers
  import opened Lexer
  import Numbers

  /** The name the parser gives to a group it creates itself. */
  const RootName: string := "__ROOT__"

  /**
   * A `NumberField` holds an unbounded `int`, while `JsonNumber::number` is a
   * C++ `int`; the parser only ever stores what `Numbers.StoI` yields, which
   * lies in `[Numbers.IntMin, Numbers.IntMax]`.
   */
  datatype Value =
    | Group(name: string, fields: seq<Value>)
    | StringField(name: string, value: string)
    | NumberField(name: string, number: int)

  /**
   * Why a parse gave no tree. `UnexpectedEnd` stands for the source reading
   * past the end of the token vector (undefined behaviour), `InvalidNumber`
   * for `std::stoi` throwing, and `MalformedField` for its `assert(false)`.
   */
  datatype ParseError = ExpectedColon | UnexpectedEnd | InvalidNumber | MalformedField | DoubleNaming

  /**
   * `extract_from_to`: hands back the tokens `[from, to)` and removes them
   * from the vector. Putting the extraction back where it came from restores
   * the vector; an empty range changes nothing.
   */
  function ExtractFromTo(tokens: seq<Token>, from: nat, to: nat): (r: (seq<Token>, seq<Token>))
    requires from <= to <= |tokens|
    ensures r.0 == tokens[from..to]
    ensures r.1 == tokens[..from] + tokens[to..]
    ensures |r.1| == |tokens| - (to - from)
    ensures r.1[..from] + r.0 + r.1[from..] == tokens
    ensures from == to ==> r.1 == tokens
  {
    if to == from then ([], tokens)
    else
      var kept := tokens[..from] + tokens[to..];
      assert kept[..from] + tokens[from..to] + kept[from..] == tokens;
      (tokens[from..to], kept)
  }

  // Brace counting.

  function Opens(ts: seq<Token>): nat {
    if |ts| == 0 then 0 else (if ts[0].kind == LeftBrace then 1 else 0) + Opens(ts[1..])
  }

  function Closes(ts: seq<Token>): nat {
    if |ts| == 0 then 0 else (if ts[0].kind == RightBrace then 1 else 0) + Closes(ts[1..])
  }

  /** How many more `{` than `}` a token sequence holds. */
  function Balance(ts: seq<Token>): int {
    Opens(ts) - Closes(ts)
  }

  function Delta(t: Token): int {
    if t.kind == LeftBrace then 1 else if t.kind == RightBrace then -1 else 0
  }

  lemma BalanceFirst(ts: seq<Token>, e: nat, m: nat)
    requires e < m <= |ts|
    ensures Balance(ts[e..m]) == Delta(ts[e]) + Balance(ts[e + 1..m])
  {
    assert ts[e..m][1..] == ts[e + 1..m];
  }

  lemma {:induction false} CountsAppend(a: seq<Token>, b: seq<Token>)
    ensures Opens(a + b) == Opens(a) + Opens(b)
    ensures Closes(a + b) == Closes(a) + Closes(b)
    decreases |a|
  {
    if |a| == 0 {
      assert a + b == b;
    } else {
      assert (a + b)[1..] == a[1..] + b;
      CountsAppend(a[1..], b);
    }
  }

  /**
   * The `while` loop that looks for the matching `}`: from index `e` with
   * depth `depth`, count `{` up and `}` down until the depth reaches zero or
   * the tokens run out. Returns the final `end_idx` and depth.
   */
  function ScanDepth(tokens: seq<Token>, e: nat, depth: int): (r: (nat, int))
    requires e <= |tokens|
    ensures e <= r.0 <= |tokens|
    ensures depth > 0 && e < |tokens| ==> e < r.0
    decreases |tokens| - e
  {
    if e < |tokens| && depth > 0 then ScanDepth(tokens, e + 1, depth + Delta(tokens[e]))
    else (e, depth)
  }

  /**
   * What the depth scan computes: the final depth is the starting depth plus
   * the balance of the tokens it passed, it passed them at positive depth, and
   * it stopped either on reaching depth zero, just after a `}`, or at the end.
   */
  lemma {:induction false} ScanDepthFacts(tokens: seq<Token>, e: nat, depth: int)
    requires e <= |tokens|
    ensures var r := ScanDepth(tokens, e, depth);
      && r.1 == depth + Balance(tokens[e..r.0])
      && (depth > 0 ==> forall k | e <= k < r.0 :: depth + Balance(tokens[e..k]) > 0)
      && (depth > 0 ==> r.1 >= 0)
      && (depth > 0 && r.1 > 0 ==> r.0 == |tokens|)
      && (depth > 0 && r.1 == 0 ==> e < r.0 && tokens[r.0 - 1].kind == RightBrace)
    decreases |tokens| - e
  {
    assert tokens[e..e] == [];
    if e < |tokens| && depth > 0 {
      var r := ScanDepth(tokens, e + 1, depth + Delta(tokens[e]));
      ScanDepthFacts(tokens, e + 1, depth + Delta(tokens[e]));
      BalanceFirst(tokens, e, r.0);
      forall k | e < k < r.0
        ensures Balance(tokens[e..k]) == Delta(tokens[e]) + Balance(tokens[e + 1..k])
      {
        BalanceFirst(tokens, e, k);
      }
    }
  }

  /**
   * Where the depth scan that starts just after a `{` at index `j - 1` stops.
   * When it stops at depth 0 the token before the stop is the matching `}`,
   * the span between the braces holds as many `{` as `}`, and no prefix of it
   * closes more than it opens. When it does not, it ran to the end of the
   * tokens and no prefix of the rest closes more than it opens either.
   */
  lemma ClosingBrace(tokens: seq<Token>, j: nat)
    requires j < |tokens|
    ensures var (e, depth) := ScanDepth(tokens, j, 1);
      && j < e
      && (depth == 0 ==>
            && tokens[e - 1].kind == RightBrace
            && Opens(tokens[j..e - 1]) == Closes(tokens[j..e - 1])
            && forall k | j <= k <= e - 1 :: Opens(tokens[j..k]) >= Closes(tokens[j..k]))
      && (depth != 0 ==>
            && e == |tokens|
            && forall k | j <= k <= e :: Opens(tokens[j..k]) >= Closes(tokens[j..k]))
  {
    var (e, depth) := ScanDepth(tokens, j, 1);
    ScanDepthFacts(tokens, j, 1);
    if depth == 0 {
      assert tokens[j..e] == tokens[j..e - 1] + [tokens[e - 1]];
      CountsAppend(tokens[j..e - 1], [tokens[e - 1]]);
    } else {
      assert forall k | j <= k < e :: 1 + Balance(tokens[j..k]) > 0;
    }
  }

  /**
   * The result of one `parse` call: a single group it created itself is
   * returned as it is, anything else is wrapped in a new group named
   * `RootName`. Either way the result is a group named `RootName`.
   */
  function Wrap(objects: seq<Value>): (r: Value)
    ensures r.Group? && r.name == RootName
    ensures r.fields == objects || objects == [r]
    ensures |objects| == 1 && objects[0].Group? && objects[0].name == RootName ==> r == objects[0]
    ensures !(|objects| == 1 && objects[0].Group? && objects[0].name == RootName) ==> r == Group(RootName, objects)
  {
    if |objects| == 1 && objects[0].Group? && objects[0].name == RootName then objects[0]
    else Group(RootName, objects)
  }

  /** `JsonParser::parse`. */
  function Parse(tokens: seq<Token>): (r: Result<Value, ParseError>)
    ensures r.Success? ==> r.value.Group? && r.value.name == RootName
    decreases |tokens|, 1
  {
    match ParseFrom(tokens, 0, [])
    case Success(objects) => Success(Wrap(objects))
    case Failure(e) => Failure(e)
  }

  /**
   * The `for` loop of `parse` from index `i`, with `objects` collected so far.
   * Objects are only ever appended, and the double-naming failure can not
   * happen.
   */
  function ParseFrom(tokens: seq<Token>, i: nat, objects: seq<Value>): (r: Result<seq<Value>, ParseError>)
    requires i <= |tokens|
    ensures r.Success? ==> objects <= r.value
    ensures r.Failure? ==> r.error != DoubleNaming
    decreases |tokens|, 0, |tokens| - i, 1
  {
    if i == |tokens| then Success(objects)
    else
      match tokens[i].kind
      case LeftBrace => ParseGroup(tokens, i + 1, None, objects)
      case StrVal =>
        var name := tokens[i].content;
        if i + 1 == |tokens| then Failure(UnexpectedEnd)
        else if tokens[i + 1].kind != Colon then Failure(ExpectedColon)
        else if i + 2 == |tokens| then Failure(UnexpectedEnd)
        else
          var k := i + 2;
          (match tokens[k].kind
          case Number =>
            (match Numbers.StoI(tokens[k].content)
             case None => Failure(InvalidNumber)
             case Some(n) => ParseFrom(tokens, k + 1, objects + [NumberField(name, n)]))
          case StrVal => ParseFrom(tokens, k + 1, objects + [StringField(name, tokens[k].content)])
          case LeftBrace => ParseGroup(tokens, k + 1, Some(name), objects)
          case _ => Failure(MalformedField))
      case _ => ParseFrom(tokens, i + 1, objects)
  }

  /**
   * The block that handles a nested group, once for a bare `{` and once for
   * `"name": {`; `j` is the index just after the `{`. Without a token after
   * the brace the loop stops. Otherwise the span up to the matching `}` is
   * cut out of the vector with `ExtractFromTo` and parsed on its own, and the
   * loop goes on after index `j`, where the closing brace has moved.
   */
  function ParseGroup(tokens: seq<Token>, j: nat, name: Option<string>, objects: seq<Value>): (r: Result<seq<Value>, ParseError>)
    requires j <= |tokens|
    ensures r.Success? ==> objects <= r.value
    ensures r.Failure? ==> r.error != DoubleNaming
    decreases |tokens|, 0, |tokens| - j + 1, 0
  {
    if j == |tokens| then Success(objects)
    else
      var (e, _) := ScanDepth(tokens, j, 1);
      var (group, rest) := ExtractFromTo(tokens, j, e - 1);
      match Parse(group)
      case Failure(err) => Failure(err)
      case Success(v) =>
        match Attach(v, name)
        case None => Failure(DoubleNaming)
        case Some(field) => ParseFrom(rest, j + 1, objects + [field])
  }

  /**
   * What `parse` keeps of a nested parse result. After a bare `{` it is kept
   * as it is. After `"name": {` a group named `RootName` takes the field's
   * name, a group with any other name is the double-naming error, and
   * anything else is kept as it is.
   */
  function Attach(v: Value, name: Option<string>): Option<Value> {
    match name
    case None => Some(v)
    case Some(n) =>
      if !v.Group? then Some(v)
      else if v.name != RootName then None
      else Some(Group(n, v.fields))
  }

  // Rendering.

  function Tabs(n: nat): (r: string)
    ensures |r| == n && forall k | 0 <= k < n :: r[k] == '\t'
  {
    if n == 0 then "" else Tabs(n - 1) + "\t"
  }

  /** `JsonParser::to_string`: one value at indentation level `indent`. */
  function ToString(v: Value, indent: nat): string
    decreases v
  {
    match v
    case Group(name, fields) =>
      var prefix := if name != RootName then Tabs(indent) + "\"" + name + "\": " else Tabs(indent);
      prefix + "{\n" + FieldsToString(fields, indent + 1) + Tabs(indent) + "}"
    case StringField(name, value) =>
      Tabs(indent) + "\"" + name + "\": " + "\"" + value + "\""
    case NumberField(name, number) =>
      Tabs(indent) + "\"" + name + "\": " + Numbers.IntToString(number)
  }

  /** The children of a group: separated by `,\n`, the last one followed by `\n`. */
  function FieldsToString(fields: seq<Value>, indent: nat): string
    decreases fields
  {
    if |fields| == 0 then ""
    else if |fields| == 1 then ToString(fields[0], indent) + "\n"
    else ToString(fields[0], indent) + ",\n" + FieldsToString(fields[1..], indent)
  }
}

=== FILE: printedtext.dfy ===
/**
 * What `JsonLexer::scan` makes of the text `JsonParser::to_string` prints:
 * exactly the tokens `PrintedTokens` describes. Every lemma here follows the
 * scan along one piece of printed text, fixed at an index of the whole input.
 */
module PrintedText {
  import opened Wrappers
  import opened Lexer
  import Numbers
  import opened Parser
  import opened PrintedTokens

  /** Scanning from index `i` emits `ts` and then goes on exactly as scanning from `j` does. */
  predicate LexesTo(s: string, i: nat, ts: seq<Token>, j: nat) {
    i <= j <= |s| && LexAt(s, i) == Prepend(ts, LexAt(s, j))
  }

  lemma {:induction false} LexesToChain(s: string, i: nat, a: seq<Token>, j: nat, b: seq<Token>, k: nat, ab: seq<Token>)
    requires LexesTo(s, i, a, j) && LexesTo(s, j, b, k) && ab == a + b
    ensures LexesTo(s, i, ab, k)
  {
    PrependAppend(a, b, LexAt(s, k));
  }

  // The pieces of printed text.

  /** White space emits nothing. */
  lemma {:induction false} LexBlank(s: string, i: nat, j: nat)
    requires i <= j <= |s| && forall m | i <= m < j :: IsWhitespace(s[m])
    ensures LexesTo(s, i, [], j)
    decreases j - i
  {
    if i == j {
      PrependNothing(LexAt(s, i));
    } else {
      StepCases(s, i);
      LexAtUnfold(s, i);
      LexBlank(s, i + 1, j);
      PrependNothing(LexAt(s, i + 1));
    }
  }

  lemma {:induction false} LexSpace(s: string, i: nat, j: nat)
    requires i < |s| && IsWhitespace(s[i]) && j == i + 1
    ensures LexesTo(s, i, [], j)
  {
    StepCases(s, i);
    LexAtUnfold(s, i);
    PrependNothing(LexAt(s, j));
  }

  lemma {:induction false} LexBlankAt(s: string, i: nat, w: string, j: nat)
    requires At(s, i, w) && forall m | 0 <= m < |w| :: IsWhitespace(w[m])
    requires j == i + |w|
    ensures LexesTo(s, i, [], j)
  {
    forall m | i <= m < i + |w|
      ensures IsWhitespace(s[m])
    {
      AtIndex(s, i, w, m - i);
    }
    LexBlank(s, i, i + |w|);
  }

  lemma {:induction false} LexPunctuation(s: string, i: nat, t: Token, j: nat)
    requires i < |s| && IsPunctuation(s[i]) && t == Token(PunctuationKind(s[i]), [s[i]])
    requires j == i + 1
    ensures LexesTo(s, i, [t], j)
  {
    StepCases(s, i);
    LexAtUnfold(s, i);
    assert s[i..i + 1] == [s[i]];
  }

  /** A quoted string without inner quotes emits the text between the quotes. */
  lemma {:induction false} LexQuoted(s: string, i: nat, x: string, j: nat)
    requires j == i + |x| + 2 && j <= |s| && s[i] == '"' && s[j - 1] == '"'
    requires At(s, i + 1, x) && '"' !in x
    ensures LexesTo(s, i, [Token(StrVal, x)], j)
  {
    forall m | i + 1 <= m < i + 1 + |x|
      ensures s[m] != '"'
    {
      AtIndex(s, i + 1, x, m - i - 1);
    }
    QuoteEndUnique(s, i + 1, i + 1 + |x|);
    LexAtUnfold(s, i);
  }

  /**
   * Digits after a space emit a number token holding the space and the
   * digits; the character after them is skipped.
   */
  lemma {:induction false} LexDigits(s: string, i: nat, d: string, j: nat)
    requires 1 <= i && At(s, i, d) && s[i - 1] == ' '
    requires |d| >= 1 && Numbers.AllDigits(d)
    requires j == i + |d| + 1 && j <= |s| && !IsDigit(s[j - 1])
    ensures LexesTo(s, i, [Token(Number, " " + d)], j)
  {
    forall m | i <= m < i + |d|
      ensures IsDigit(s[m])
    {
      AtIndex(s, i, d, m - i);
    }
    DigitRunEndUnique(s, i + 1, i + |d|);
    assert s[i - 1..i + |d|] == " " + d by {
      assert s[i..i + |d|] == d;
      assert s[i - 1..i + |d|] == [s[i - 1]] + s[i..i + |d|];
    }
    assert Step(s, i) == Emit([Token(Number, " " + d)], j);
    LexAtUnfold(s, i);
  }

  // Printed fields.

  /**
   * The beginning `\t…\t"name": ` of every printed field, ending where the
   * value starts: it emits the name and the colon.
   */
  lemma {:induction false} LexName(s: string, i: nat, k: nat, name: string, j: nat)
    requires '"' !in name && At(s, i, Tabs(k) + "\"" + name + "\": ")
    requires j == i + k + |name| + 4
    ensures LexesTo(s, i, [Token(StrVal, name), Token(Colon, ":")], j)
  {
    var a := i + k;
    var b := a + 1 + |name|;
    AtSplit(s, i, Tabs(k) + "\"" + name, "\": ");
    AtSplit(s, i, Tabs(k) + "\"", name);
    AtSplit(s, i, Tabs(k), "\"");
    LexBlankAt(s, i, Tabs(k), a);
    AtIndex(s, a, "\"", 0);
    AtIndex(s, b, "\": ", 0);
    AtIndex(s, b, "\": ", 1);
    AtIndex(s, b, "\": ", 2);
    LexQuoted(s, a, name, b + 1);
    LexPunctuation(s, b + 1, Token(Colon, ":"), b + 2);
    LexSpace(s, b + 2, j);
    var str, colon := [Token(StrVal, name)], [Token(Colon, ":")];
    LexesToChain(s, i, [], a, str, b + 1, str);
    LexesToChain(s, b + 1, colon, b + 2, [], j, colon);
    LexesToChain(s, i, str, b + 1, colon, j, [Token(StrVal, name), Token(Colon, ":")]);
  }

  lemma {:induction false} LexStringField(s: string, i: nat, k: nat, name: string, value: string, j: nat)
    requires Printable(StringField(name, value))
    requires At(s, i, ToString(StringField(name, value), k))
    requires j == i + |ToString(StringField(name, value), k)|
    ensures LexesTo(s, i, ValueTokens(StringField(name, value)), j)
  {
    var head := Tabs(k) + "\"" + name + "\": ";
    assert ToString(StringField(name, value), k) == head + "\"" + value + "\"";
    AtSplit(s, i, head + "\"" + value, "\"");
    AtSplit(s, i, head + "\"", value);
    AtSplit(s, i, head, "\"");
    var a := i + |head|;
    AtIndex(s, a, "\"", 0);
    AtIndex(s, j - 1, "\"", 0);
    LexName(s, i, k, name, a);
    LexQuoted(s, a, value, j);
    LexesToChain(s, i, [Token(StrVal, name), Token(Colon, ":")], a, [Token(StrVal, value)], j,
                 ValueTokens(StringField(name, value)));
  }

  /** A printed number field; the character after it is skipped, so it must not be a digit. */
  lemma {:induction false} LexNumberField(s: string, i: nat, k: nat, name: string, number: int, j: nat)
    requires Printable(NumberField(name, number))
    requires At(s, i, ToString(NumberField(name, number), k))
    requires j == i + |ToString(NumberField(name, number), k)| + 1 && j <= |s| && !IsDigit(s[j - 1])
    ensures LexesTo(s, i, ValueTokens(NumberField(name, number)), j)
  {
    var head := Tabs(k) + "\"" + name + "\": ";
    var digits := Numbers.IntToString(number);
    assert ToString(NumberField(name, number), k) == head + digits;
    AtSplit(s, i, head, digits);
    var a := i + |head|;
    AtIndex(s, i, head, |head| - 1);
    LexName(s, i, k, name, a);
    LexDigits(s, a, digits, j);
    LexesToChain(s, i, [Token(StrVal, name), Token(Colon, ":")], a, [Token(Number, " " + digits)], j,
                 ValueTokens(NumberField(name, number)));
  }

  /**
   * The layout of a printed nested group: its `"name": ` head at `i`, the
   * opening brace and newline at `a`, the fields' text from `a + 2` to `b`,
   * the indentation and closing brace from `b` to `j`.
   */
  predicate GroupPieces(s: string, i: nat, k: nat, name: string, fields: seq<Value>, a: nat, b: nat, j: nat)
  {
    && a == i + k + |name| + 4 && b == a + 2 + |FieldsToString(fields, k + 1)| && j == b + k + 1
    && At(s, i, Tabs(k) + "\"" + name + "\": ")
    && j <= |s| && s[a] == '{' && s[a + 1] == '\n' && s[b + k] == '}'
    && At(s, a + 2, FieldsToString(fields, k + 1))
    && At(s, b, Tabs(k))
  }

  /** Where the pieces of a printed nested group sit. */
  lemma {:induction false} GroupLayout(s: string, i: nat, k: nat, name: string, fields: seq<Value>, j: nat)
    returns (a: nat, b: nat)
    requires name != RootName && At(s, i, ToString(Group(name, fields), k))
    requires j == i + |ToString(Group(name, fields), k)|
    ensures GroupPieces(s, i, k, name, fields, a, b, j)
  {
    var head := Tabs(k) + "\"" + name + "\": ";
    var body := FieldsToString(fields, k + 1);
    assert ToString(Group(name, fields), k) == head + "{\n" + body + Tabs(k) + "}";
    AtSplit(s, i, head + "{\n" + body + Tabs(k), "}");
    AtSplit(s, i, head + "{\n" + body, Tabs(k));
    AtSplit(s, i, head + "{\n", body);
    AtSplit(s, i, head, "{\n");
    a := i + |head|;
    b := a + 2 + |body|;
    AtIndex(s, a, "{\n", 0);
    AtIndex(s, a, "{\n", 1);
    AtIndex(s, b + k, "}", 0);
  }

  /** A printed nested group emits its name, the braces and its fields' tokens between them. */
  lemma {:induction false} LexGroupField(s: string, i: nat, k: nat, name: string, fields: seq<Value>, a: nat, b: nat, j: nat)
    requires '"' !in name && a == i + k + |name| + 4 && a + 2 <= b && j == b + k + 1
    requires At(s, i, Tabs(k) + "\"" + name + "\": ")
    requires j <= |s| && s[a] == '{' && s[a + 1] == '\n' && s[b + k] == '}'
    requires LexesTo(s, a + 2, FieldsTokens(fields), b)
    requires At(s, b, Tabs(k))
    ensures LexesTo(s, i, ValueTokens(Group(name, fields)), j)
  {
    LexGroupOpening(s, i, k, name, a);
    LexGroupClosing(s, b, k, j);
    GroupChain(s, i, a + 2, b, j, name, fields);
  }

  /** The opening, the fields and the closing brace together emit the group's tokens. */
  lemma {:induction false} GroupChain(s: string, i: nat, a: nat, b: nat, j: nat, name: string, fields: seq<Value>)
    requires LexesTo(s, i, [Token(StrVal, name), Token(Colon, ":"), Token(LeftBrace, "{")], a)
    requires LexesTo(s, a, FieldsTokens(fields), b)
    requires LexesTo(s, b, [Token(RightBrace, "}")], j)
    ensures LexesTo(s, i, ValueTokens(Group(name, fields)), j)
  {
    var opening := [Token(StrVal, name), Token(Colon, ":"), Token(LeftBrace, "{")];
    LexesToChain(s, i, opening, a, FieldsTokens(fields), b, opening + FieldsTokens(fields));
    LexesToChain(s, i, opening + FieldsTokens(fields), b, [Token(RightBrace, "}")], j, ValueTokens(Group(name, fields)));
  }

  /** `\t…\t"name": {` and the line break after it. */
  lemma {:induction false} LexGroupOpening(s: string, i: nat, k: nat, name: string, a: nat)
    requires '"' !in name && At(s, i, Tabs(k) + "\"" + name + "\": ") && a == i + k + |name| + 4
    requires a + 1 < |s| && s[a] == '{' && s[a + 1] == '\n'
    ensures LexesTo(s, i, [Token(StrVal, name), Token(Colon, ":"), Token(LeftBrace, "{")], a + 2)
  {
    var names := [Token(StrVal, name), Token(Colon, ":")];
    LexName(s, i, k, name, a);
    LexPunctuation(s, a, Token(LeftBrace, "{"), a + 1);
    LexSpace(s, a + 1, a + 2);
    LexesToChain(s, a, [Token(LeftBrace, "{")], a + 1, [], a + 2, [Token(LeftBrace, "{")]);
    LexesToChain(s, i, names, a, [Token(LeftBrace, "{")], a + 2, [Token(StrVal, name), Token(Colon, ":"), Token(LeftBrace, "{")]);
  }

  /** The indentation before a closing `}`, and the brace. */
  lemma {:induction false} LexGroupClosing(s: string, b: nat, k: nat, j: nat)
    requires At(s, b, Tabs(k)) && j == b + k + 1 && j <= |s| && s[b + k] == '}'
    ensures LexesTo(s, b, [Token(RightBrace, "}")], j)
  {
    LexBlankAt(s, b, Tabs(k), b + k);
    LexPunctuation(s, b + k, Token(RightBrace, "}"), j);
    LexesToChain(s, b, [], b + k, [Token(RightBrace, "}")], j, [Token(RightBrace, "}")]);
  }

  /** The printed fields of a group emit their tokens, the separating commas after non-numbers included. */
  lemma {:induction false} LexFields(s: string, i: nat, k: nat, fields: seq<Value>, j: nat)
    requires PrintableFields(fields)
    requires At(s, i, FieldsToString(fields, k))
    requires j == i + |FieldsToString(fields, k)|
    ensures LexesTo(s, i, FieldsTokens(fields), j)
    decreases fields, 1
  {
    if |fields| == 0 {
      PrependNothing(LexAt(s, i));
    } else if |fields| == 1 {
      LexLastField(s, i, k, fields, j);
    } else {
      LexFieldsCons(s, i, k, fields, j);
    }
  }

  /** The last field of a group, followed by its line break. */
  lemma {:induction false} LexLastField(s: string, i: nat, k: nat, fields: seq<Value>, j: nat)
    requires |fields| == 1 && PrintableFields(fields)
    requires At(s, i, FieldsToString(fields, k))
    requires j == i + |FieldsToString(fields, k)|
    ensures LexesTo(s, i, FieldsTokens(fields), j)
    decreases fields, 0
  {
    var v := fields[0];
    var text := ToString(v, k);
    var a := i + |text|;
    AtSplit(s, i, text, "\n");
    AtIndex(s, a, "\n", 0);
    if v.NumberField? {
      LexFirstField(s, i, k, v, j);
    } else {
      LexFirstField(s, i, k, v, a);
      LexSpace(s, a, j);
      LexesToChain(s, i, ValueTokens(v), a, [], j, ValueTokens(v));
    }
    assert FieldsTokens(fields) == ValueTokens(v);
  }

  /** A field followed by `,` and a line break, then the remaining fields. */
  lemma {:induction false} LexFieldsCons(s: string, i: nat, k: nat, fields: seq<Value>, j: nat)
    requires |fields| > 1 && PrintableFields(fields)
    requires At(s, i, FieldsToString(fields, k))
    requires j == i + |FieldsToString(fields, k)|
    ensures LexesTo(s, i, FieldsTokens(fields), j)
    decreases fields, 0
  {
    var v := fields[0];
    var text := ToString(v, k);
    var a := i + |text|;
    var more := FieldsToString(fields[1..], k);
    AtSplit(s, i, text + ",\n", more);
    AtSplit(s, i, text, ",\n");
    AtIndex(s, a, ",\n", 0);
    AtIndex(s, a, ",\n", 1);
    LexFields(s, a + 2, k, fields[1..], j);
    LexSpace(s, a + 1, a + 2);
    if v.NumberField? {
      assert Separator(fields) == [];
      assert ValueTokens(v) + Separator(fields) == ValueTokens(v);
      LexFirstField(s, i, k, v, a + 1);
      FieldsChain(s, i, a + 1, j, fields, ValueTokens(v));
    } else {
      assert Separator(fields) == [Token(Comma, ",")];
      LexFirstField(s, i, k, v, a);
      LexPunctuation(s, a, Token(Comma, ","), a + 1);
      var first := ValueTokens(v) + [Token(Comma, ",")];
      LexesToChain(s, i, ValueTokens(v), a, [Token(Comma, ",")], a + 1, first);
      FieldsChain(s, i, a + 1, j, fields, first);
    }
  }

  lemma {:induction false} FieldsChain(s: string, i: nat, c: nat, j: nat, fields: seq<Value>, first: seq<Token>)
    requires |fields| > 1 && c + 1 <= j && first == ValueTokens(fields[0]) + Separator(fields)
    requires LexesTo(s, i, first, c)
    requires LexesTo(s, c, [], c + 1) && LexesTo(s, c + 1, FieldsTokens(fields[1..]), j)
    ensures LexesTo(s, i, FieldsTokens(fields), j)
  {
    LexesToChain(s, i, first, c, [], c + 1, first);
    LexesToChain(s, i, first, c + 1, FieldsTokens(fields[1..]), j, FieldsTokens(fields));
  }

  /**
   * One printed field followed by a character that is not a digit: a
   * number field also consumes that character.
   */
  lemma {:induction false} LexFirstField(s: string, i: nat, k: nat, v: Value, j: nat)
    requires Printable(v) && At(s, i, ToString(v, k))
    requires i + |ToString(v, k)| < |s| && !IsDigit(s[i + |ToString(v, k)|])
    requires j == i + |ToString(v, k)| + (if v.NumberField? then 1 else 0)
    ensures LexesTo(s, i, ValueTokens(v), j)
    decreases v, 2
  {
    match v
    case StringField(name, value) => LexStringField(s, i, k, name, value, j);
    case NumberField(name, number) => LexNumberField(s, i, k, name, number, j);
    case Group(name, fields) => LexGroup(s, i, k, name, fields, j);
  }

  /** A printed nested group, located through its layout. */
  lemma {:induction false} LexGroup(s: string, i: nat, k: nat, name: string, fields: seq<Value>, j: nat)
    requires Printable(Group(name, fields)) && At(s, i, ToString(Group(name, fields), k))
    requires j == i + |ToString(Group(name, fields), k)| && j <= |s|
    ensures LexesTo(s, i, ValueTokens(Group(name, fields)), j)
    decreases Group(name, fields), 1
  {
    var a, b := GroupLayout(s, i, k, name, fields, j);
    LexGroupParts(s, i, k, name, fields, a, b, j);
  }

  /** The pieces `GroupLayout` finds, each scanned on its own. */
  lemma {:induction false} LexGroupParts(s: string, i: nat, k: nat, name: string, fields: seq<Value>, a: nat, b: nat, j: nat)
    requires Printable(Group(name, fields))
    requires GroupPieces(s, i, k, name, fields, a, b, j)
    ensures LexesTo(s, i, ValueTokens(Group(name, fields)), j)
    decreases Group(name, fields), 0
  {
    LexFields(s, a + 2, k + 1, fields, b);
    LexGroupField(s, i, k, name, fields, a, b, j);
  }
}

=== FILE: printedtokens.dfy ===
/**
 * The token stream of a document printed by `JsonParser::to_string`, and
 * the proof that `JsonParser::parse` rebuilds the printed tree from it. The
 * facts hold for the values the renderer prints unambiguously (`Printable`).
 */
module PrintedTokens {
  import opened Wrappers
  import opened Lexer
  import Numbers
  import opened Parser
  import opened Reference

  /**
   * A field the renderer prints so that it reads back as itself: names and
   * string values hold no `"` (the renderer does not escape), numbers are
   * non-negative `int`s (the scanner has no minus sign), and a nested group
   * is not named `RootName` (the renderer would print it without a name).
   */
  predicate Printable(v: Value)
    decreases v
  {
    match v
    case Group(name, fields) => '"' !in name && name != RootName && PrintableFields(fields)
    case StringField(name, value) => '"' !in name && '"' !in value
    case NumberField(name, number) => '"' !in name && 0 <= number <= Numbers.IntMax
  }

  predicate PrintableFields(fields: seq<Value>)
    decreases fields
  {
    |fields| == 0 || (Printable(fields[0]) && PrintableFields(fields[1..]))
  }

  /** The tokens the text of one printed field scans to. */
  function ValueTokens(v: Value): seq<Token>
    decreases v
  {
    match v
    case Group(name, fields) =>
      [Token(StrVal, name), Token(Colon, ":"), Token(LeftBrace, "{")] + FieldsTokens(fields) + [Token(RightBrace, "}")]
    case StringField(name, value) =>
      [Token(StrVal, name), Token(Colon, ":"), Token(StrVal, value)]
    case NumberField(name, number) =>
      [Token(StrVal, name), Token(Colon, ":"), Token(Number, " " + Numbers.IntToString(number))]
  }

  /**
   * The tokens the printed fields of a group scan to. The comma between two
   * fields is a token except after a number, where the scanner skips it as
   * the character that ended the digits.
   */
  function FieldsTokens(fields: seq<Value>): seq<Token>
    decreases fields
  {
    if |fields| == 0 then []
    else ValueTokens(fields[0]) + Separator(fields) + FieldsTokens(fields[1..])
  }

  function Separator(fields: seq<Value>): seq<Token>
    requires |fields| > 0
  {
    if |fields| > 1 && !fields[0].NumberField? then [Token(Comma, ",")] else []
  }

  /** The tokens of a printed document whose root group holds `fields`. */
  function DocumentTokens(fields: seq<Value>): seq<Token> {
    [Token(LeftBrace, "{")] + FieldsTokens(fields) + [Token(RightBrace, "}")]
  }

  /** `w` occurs in `s` at index `i`. */
  predicate At<T(==)>(s: seq<T>, i: nat, w: seq<T>) {
    i + |w| <= |s| && s[i..i + |w|] == w
  }

  lemma AtSplit<T>(s: seq<T>, i: nat, a: seq<T>, b: seq<T>)
    requires At(s, i, a + b)
    ensures At(s, i, a) && At(s, i + |a|, b)
  {
    assert s[i..i + |a|] == s[i..i + |a + b|][..|a|];
    assert s[i + |a|..i + |a| + |b|] == s[i..i + |a + b|][|a|..];
  }

  lemma AtIndex<T>(s: seq<T>, i: nat, w: seq<T>, m: nat)
    requires At(s, i, w) && m < |w|
    ensures s[i + m] == w[m]
  {
    assert s[i..i + |w|][m] == s[i + m];
  }

  // The depth scan over printed fields.

  /** The lowest brace balance over the prefixes of `w` (the empty prefix included). */
  function Low(w: seq<Token>): (r: int)
    ensures r <= 0
  {
    if |w| == 0 then 0
    else
      var rest := Delta(w[0]) + Low(w[1..]);
      if rest < 0 then rest else 0
  }

  lemma BalanceHead(w: seq<Token>)
    requires |w| > 0
    ensures Balance(w) == Delta(w[0]) + Balance(w[1..])
  {
  }

  lemma {:induction false} LowAppend(a: seq<Token>, b: seq<Token>)
    ensures Balance(a + b) == Balance(a) + Balance(b)
    ensures Low(a + b) == if Low(a) < Balance(a) + Low(b) then Low(a) else Balance(a) + Low(b)
    decreases |a|
  {
    CountsAppend(a, b);
    if |a| == 0 {
      assert a + b == b;
    } else {
      assert (a + b)[1..] == a[1..] + b;
      LowAppend(a[1..], b);
      BalanceHead(a);
    }
  }

  /**
   * The depth scan passes over a span that never takes it down to zero,
   * ending at the depth it started with plus the span's balance.
   */
  lemma {:induction false} ScanOver(ts: seq<Token>, i: nat, w: seq<Token>, depth: int)
    requires At(ts, i, w) && depth + Low(w) > 0
    ensures ScanDepth(ts, i, depth) == ScanDepth(ts, i + |w|, depth + Balance(w))
    decreases |w|
  {
    if |w| > 0 {
      AtIndex(ts, i, w, 0);
      AtSplit(ts, i, [w[0]], w[1..]);
      assert [w[0]] + w[1..] == w;
      BalanceHead(w);
      ScanOver(ts, i + 1, w[1..], depth + Delta(w[0]));
    }
  }

  /** A balanced span: as many `{` as `}`, and no prefix closes more than it opens. */
  predicate Nested(w: seq<Token>) {
    Balance(w) == 0 && Low(w) == 0
  }

  /** A span without braces is nested. */
  lemma {:induction false} PlainNested(w: seq<Token>)
    requires forall k | 0 <= k < |w| :: w[k].kind != LeftBrace && w[k].kind != RightBrace
    ensures Nested(w)
    decreases |w|
  {
    if |w| > 0 {
      BalanceHead(w);
      PlainNested(w[1..]);
    }
  }

  /** A nested span between a `{` and a `}` is nested. */
  lemma Enclosed(head: seq<Token>, inner: seq<Token>)
    requires Nested(head) && Nested(inner)
    ensures Nested(head + [Token(LeftBrace, "{")] + inner + [Token(RightBrace, "}")])
  {
    var open, close := [Token(LeftBrace, "{")], [Token(RightBrace, "}")];
    assert Balance(open) == 1 && Low(open) == 0 by {
      BalanceHead(open);
      assert open[1..] == [];
    }
    assert Balance(close) == -1 && Low(close) == -1 by {
      BalanceHead(close);
      assert close[1..] == [];
    }
    LowAppend(head, open);
    LowAppend(head + open, inner);
    LowAppend(head + open + inner, close);
  }

  lemma {:induction false} NestedValue(v: Value)
    ensures Nested(ValueTokens(v))
    decreases v
  {
    var names := [Token(StrVal, v.name), Token(Colon, ":")];
    match v
    case Group(_, fields) =>
      PlainNested(names);
      NestedFields(fields);
      Enclosed(names, FieldsTokens(fields));
      assert ValueTokens(v) == names + [Token(LeftBrace, "{")] + FieldsTokens(fields) + [Token(RightBrace, "}")];
    case StringField(_, value) =>
      PlainNested(ValueTokens(v));
    case NumberField(_, number) =>
      PlainNested(ValueTokens(v));
  }

  lemma {:induction false} NestedFields(fields: seq<Value>)
    ensures Nested(FieldsTokens(fields))
    decreases fields
  {
    if |fields| > 0 {
      var first := ValueTokens(fields[0]);
      var sep := Separator(fields);
      var rest := FieldsTokens(fields[1..]);
      assert FieldsTokens(fields) == first + sep + rest;
      NestedValue(fields[0]);
      NestedFields(fields[1..]);
      PlainNested(sep);
      LowAppend(first, sep);
      LowAppend(first + sep, rest);
    }
  }

  /** After a `{`, the depth scan over printed fields stops just past the `}` that follows them. */
  lemma ScanToClosingBrace(fields: seq<Value>, tail: seq<Token>)
    ensures var ts := FieldsTokens(fields) + [Token(RightBrace, "}")] + tail;
      ScanDepth(ts, 0, 1) == (|FieldsTokens(fields)| + 1, 0)
  {
    var inner := FieldsTokens(fields);
    var ts := inner + [Token(RightBrace, "}")] + tail;
    assert ts[0..|inner|] == inner;
    NestedFields(fields);
    ScanOver(ts, 0, inner, 1);
    assert ts[|inner|].kind == RightBrace;
  }

  // Parsing printed fields.

  /** A group made of printed fields is not the parser's own single root group, so it gets wrapped. */
  lemma WrapPrintable(fields: seq<Value>)
    requires PrintableFields(fields)
    ensures Wrap(fields) == Group(RootName, fields)
  {
  }

  /** The tokens of a printed field parse back to that field. */
  lemma {:induction false} ParseValueTokens(v: Value, tail: seq<Token>, objects: seq<Value>)
    requires Printable(v)
    ensures ParseSeq(ValueTokens(v) + tail, objects) == ParseSeq(tail, objects + [v])
    decreases v, 2
  {
    match v
    case StringField(name, value) =>
      assert (ValueTokens(v) + tail)[3..] == tail;
    case NumberField(name, number) =>
      ParseNumberTokens(name, number, tail, objects);
    case Group(name, fields) =>
      ParseGroupTokens(name, fields, tail, objects);
  }

  lemma ParseNumberTokens(name: string, number: int, tail: seq<Token>, objects: seq<Value>)
    requires 0 <= number <= Numbers.IntMax
    ensures ParseSeq(ValueTokens(NumberField(name, number)) + tail, objects)
         == ParseSeq(tail, objects + [NumberField(name, number)])
  {
    var ts := ValueTokens(NumberField(name, number)) + tail;
    assert ts[3..] == tail;
    Numbers.StoIDecimal(' ', number);
    assert " " + Numbers.IntToString(number) == [' '] + Numbers.Decimal(number);
  }

  lemma {:induction false} ParseGroupTokens(name: string, fields: seq<Value>, tail: seq<Token>, objects: seq<Value>)
    requires Printable(Group(name, fields))
    ensures ParseSeq(ValueTokens(Group(name, fields)) + tail, objects)
         == ParseSeq(tail, objects + [Group(name, fields)])
    decreases Group(name, fields), 1
  {
    var ts := ValueTokens(Group(name, fields)) + tail;
    var g := FieldsTokens(fields) + [Token(RightBrace, "}")] + tail;
    assert ts[0] == Token(StrVal, name) && ts[1] == Token(Colon, ":") && ts[2] == Token(LeftBrace, "{");
    assert ts[3..] == g;
    assert ParseSeq(ts, objects) == ParseSeqGroup(g, Some(name), objects);
    ParseGroupBody(name, fields, tail, objects);
  }

  /** After `"name": {`: the group's fields up to the matching `}`, then the rest. */
  lemma {:induction false} ParseGroupBody(name: string, fields: seq<Value>, tail: seq<Token>, objects: seq<Value>)
    requires Printable(Group(name, fields))
    ensures ParseSeqGroup(FieldsTokens(fields) + [Token(RightBrace, "}")] + tail, Some(name), objects)
         == ParseSeq(tail, objects + [Group(name, fields)])
    decreases Group(name, fields), 0
  {
    var inner := FieldsTokens(fields);
    var g := inner + [Token(RightBrace, "}")] + tail;
    ScanToClosingBrace(fields, tail);
    ParseNestedFields(fields);
    assert g[..|inner|] == inner;
    assert g[|inner| + 1..] == tail;
  }

  /** The tokens of printed fields, on their own, parse to a root group holding them. */
  lemma {:induction false} ParseNestedFields(fields: seq<Value>)
    requires PrintableFields(fields)
    ensures ParseTokens(FieldsTokens(fields)) == Success(Group(RootName, fields))
    decreases fields, 1
  {
    assert ParseSeq(FieldsTokens(fields), []) == Success(fields) by {
      ParseFieldsTokens(fields, [], []);
      assert FieldsTokens(fields) + [] == FieldsTokens(fields);
      assert [] + fields == fields;
    }
    WrapPrintable(fields);
  }

  /** The parser steps over the comma between two printed fields. */
  lemma SkipSeparator(fields: seq<Value>, ts: seq<Token>, objects: seq<Value>)
    requires |fields| > 0
    ensures ParseSeq(Separator(fields) + ts, objects) == ParseSeq(ts, objects)
  {
    var sep := Separator(fields);
    if |sep| == 1 {
      assert (sep + ts)[1..] == ts;
    } else {
      assert sep + ts == ts;
    }
  }

  /** The tokens of printed fields parse back to those fields, in order. */
  lemma {:induction false} ParseFieldsTokens(fields: seq<Value>, tail: seq<Token>, objects: seq<Value>)
    requires PrintableFields(fields)
    ensures ParseSeq(FieldsTokens(fields) + tail, objects) == ParseSeq(tail, objects + fields)
    decreases fields, 0
  {
    if |fields| == 0 {
      assert [] + tail == tail && objects + fields == objects;
    } else {
      var sep := Separator(fields);
      var rest := FieldsTokens(fields[1..]);
      assert FieldsTokens(fields) + tail == ValueTokens(fields[0]) + (sep + (rest + tail));
      ParseValueTokens(fields[0], sep + (rest + tail), objects);
      SkipSeparator(fields, rest + tail, objects + [fields[0]]);
      ParseFieldsTokens(fields[1..], tail, objects + [fields[0]]);
      assert objects + [fields[0]] + fields[1..] == objects + fields;
    }
  }

  /** The tokens of a printed document parse back to its root group. */
  lemma ParseDocument(fields: seq<Value>)
    requires PrintableFields(fields)
    ensures Parse(DocumentTokens(fields)) == Success(Group(RootName, fields))
  {
    var ts := DocumentTokens(fields);
    var inner := FieldsTokens(fields);
    ParseEquivalence(ts);
    var g := ts[1..];
    assert g == inner + [Token(RightBrace, "}")] + [];
    ScanToClosingBrace(fields, []);
    ParseNestedFields(fields);
    assert g[..|inner|] == inner;
    assert g[|inner| + 1..] == [];
    var root := Group(RootName, fields);
    assert ParseSeqGroup(g, None, []) == ParseSeq([], [root]);
    assert ParseSeq(ts, []) == Success([root]);
    assert Wrap([root]) == root;
  }
}

=== FILE: reference.dfy ===
/**
 * A read-only reading of `JsonParser::parse`: the tokens are consumed from
 * the front and a nested group is skipped past its closing brace, instead of
 * being cut out of the vector while the loop index is moved onto the brace
 * that takes its place. The two readings agree on every token sequence
 * (`ParseEquivalence`), so facts about the parser can be proved here.
 */
module Reference {
  import opened Wrappers
  import opened Lexer
  import Numbers
  import opened Parser

  /** The result `parse` gives for `tokens`, read off the front. */
  function ParseTokens(tokens: seq<Token>): Result<Value, ParseError>
    decreases |tokens|, 2
  {
    match ParseSeq(tokens, [])
    case Success(objects) => Success(Wrap(objects))
    case Failure(e) => Failure(e)
  }

  /** The objects collected from the remaining tokens `ts`, after `objects`. */
  function ParseSeq(ts: seq<Token>, objects: seq<Value>): Result<seq<Value>, ParseError>
    decreases |ts|, 1
  {
    if |ts| == 0 then Success(objects)
    else
      match ts[0].kind
      case LeftBrace => ParseSeqGroup(ts[1..], None, objects)
      case StrVal =>
        var name := ts[0].content;
        if |ts| == 1 then Failure(UnexpectedEnd)
        else if ts[1].kind != Colon then Failure(ExpectedColon)
        else if |ts| == 2 then Failure(UnexpectedEnd)
        else
          (match ts[2].kind
          case Number =>
            (match Numbers.StoI(ts[2].content)
             case None => Failure(InvalidNumber)
             case Some(n) => ParseSeq(ts[3..], objects + [NumberField(name, n)]))
          case StrVal => ParseSeq(ts[3..], objects + [StringField(name, ts[2].content)])
          case LeftBrace => ParseSeqGroup(ts[3..], Some(name), objects)
          case _ => Failure(MalformedField))
      case _ => ParseSeq(ts[1..], objects)
  }

  /** A nested group whose tokens start `ts`: parse up to the matching `}` and go on after it. */
  function ParseSeqGroup(ts: seq<Token>, name: Option<string>, objects: seq<Value>): Result<seq<Value>, ParseError>
    decreases |ts|, 0
  {
    if |ts| == 0 then Success(objects)
    else
      var (e, _) := ScanDepth(ts, 0, 1);
      match ParseTokens(ts[..e - 1])
      case Failure(err) => Failure(err)
      case Success(v) =>
        match Attach(v, name)
        case None => Failure(DoubleNaming)
        case Some(field) => ParseSeq(ts[e..], objects + [field])
  }

  /** The depth scan only looks at the tokens from its start index on. */
  lemma {:induction false} ScanDepthShift(t1: seq<Token>, j1: nat, t2: seq<Token>, j2: nat, depth: int)
    requires j1 <= |t1| && j2 <= |t2| && t1[j1..] == t2[j2..]
    ensures ScanDepth(t1, j1, depth).0 - j1 == ScanDepth(t2, j2, depth).0 - j2
    ensures ScanDepth(t1, j1, depth).1 == ScanDepth(t2, j2, depth).1
    decreases |t1| - j1
  {
    assert |t1| - j1 == |t1[j1..]| == |t2| - j2;
    if j1 < |t1| && depth > 0 {
      assert t1[j1] == t1[j1..][0] == t2[j2];
      assert t1[j1 + 1..] == t1[j1..][1..] == t2[j2 + 1..];
      ScanDepthShift(t1, j1 + 1, t2, j2 + 1, depth + Delta(t1[j1]));
    }
  }

  /** Cutting a group out and resuming on its closing brace is the same as skipping it. */
  lemma {:induction false} ParseEquivalence(tokens: seq<Token>)
    ensures Parse(tokens) == ParseTokens(tokens)
    decreases |tokens|, 1
  {
    ParseFromEquivalence(tokens, 0, []);
    assert tokens[0..] == tokens;
  }

  lemma {:induction false} ParseFromEquivalence(tokens: seq<Token>, i: nat, objects: seq<Value>)
    requires i <= |tokens|
    ensures ParseFrom(tokens, i, objects) == ParseSeq(tokens[i..], objects)
    decreases |tokens|, 0, |tokens| - i, 2
  {
    if i < |tokens| {
      var u := tokens[i..];
      assert u[0] == tokens[i];
      assert tokens[i + 1..] == u[1..];
      match tokens[i].kind
      case LeftBrace => GroupEquivalence(tokens, i + 1, None, objects);
      case StrVal => FieldEquivalence(tokens, i, objects);
      case _ => ParseFromEquivalence(tokens, i + 1, objects);
    }
  }

  /** `ParseFromEquivalence` when a name is under the cursor. */
  lemma {:induction false} FieldEquivalence(tokens: seq<Token>, i: nat, objects: seq<Value>)
    requires i < |tokens| && tokens[i].kind == StrVal
    ensures ParseFrom(tokens, i, objects) == ParseSeq(tokens[i..], objects)
    decreases |tokens|, 0, |tokens| - i, 1
  {
    var u := tokens[i..];
    assert u[0] == tokens[i];
    if i + 1 < |tokens| {
      assert u[1] == tokens[i + 1];
    }
    if i + 2 < |tokens| && tokens[i + 1].kind == Colon {
      assert u[2] == tokens[i + 2];
      assert tokens[i + 3..] == u[3..];
      var name := tokens[i].content;
      var k := i + 2;
      match tokens[k].kind
      case Number =>
        if Numbers.StoI(tokens[k].content).Some? {
          ParseFromEquivalence(tokens, k + 1, objects + [NumberField(name, Numbers.StoI(tokens[k].content).value)]);
        }
      case StrVal =>
        ParseFromEquivalence(tokens, k + 1, objects + [StringField(name, tokens[k].content)]);
      case LeftBrace => GroupEquivalence(tokens, k + 1, Some(name), objects);
      case _ =>
    }
  }

  /** The nested-group block read both ways. */
  lemma {:induction false} GroupEquivalence(tokens: seq<Token>, j: nat, name: Option<string>, objects: seq<Value>)
    requires j <= |tokens|
    ensures ParseGroup(tokens, j, name, objects) == ParseSeqGroup(tokens[j..], name, objects)
    decreases |tokens|, 0, |tokens| - j + 1, 0
  {
    if j < |tokens| {
      var u := tokens[j..];
      var (e, _) := ScanDepth(tokens, j, 1);
      ScanDepthShift(tokens, j, u, 0, 1);
      assert tokens[j..e - 1] == u[..e - j - 1];
      ParseEquivalence(tokens[j..e - 1]);
      var (group, rest) := ExtractFromTo(tokens, j, e - 1);
      if Parse(group).Success? && Attach(Parse(group).value, name).Some? {
        assert rest[j + 1..] == tokens[e..] == u[e - j..];
        ParseFromEquivalence(rest, j + 1, objects + [Attach(Parse(group).value, name).value]);
      }
    }
  }

  /** A token that cannot start a field or a group: `}`, `:`, `,` or a number. */
  predicate Passed(t: Token) {
    t.kind != LeftBrace && t.kind != StrVal
  }

  /** Tokens met where a field could start that cannot start one are passed over without effect. */
  lemma {:induction false} PassOver(passed: seq<Token>, rest: seq<Token>, objects: seq<Value>)
    requires forall k | 0 <= k < |passed| :: Passed(passed[k])
    ensures ParseSeq(passed + rest, objects) == ParseSeq(rest, objects)
    decreases |passed|
  {
    if |passed| == 0 {
      assert passed + rest == rest;
    } else {
      assert (passed + rest)[0] == passed[0];
      assert (passed + rest)[1..] == passed[1..] + rest;
      PassOver(passed[1..], rest, objects);
    }
  }

  /** So a document is parsed the same with or without such tokens in front. */
  lemma PassOverParse(passed: seq<Token>, rest: seq<Token>)
    requires forall k | 0 <= k < |passed| :: Passed(passed[k])
    ensures Parse(passed + rest) == Parse(rest)
  {
    ParseEquivalence(passed + rest);
    ParseEquivalence(rest);
    PassOver(passed, rest, []);
  }
}

=== FILE: roundtrip.dfy ===
/**
 * The round trip of the whole program: a document printed by
 * `JsonParser::to_string` from the root of a tree, scanned by
 * `JsonLexer::scan` and parsed by `JsonParser::parse`, comes back as the
 * same tree, provided every name, string and number can be printed and
 * read back (`Printable`).
 */
module RoundTrip {
  import opened Wrappers
  import opened Lexer
  import opened Parser
  import opened PrintedTokens
  import opened PrintedText

  /** The root group prints without a name and without indentation. */
  lemma DocumentLayout(fields: seq<Value>)
    ensures ToString(Group(RootName, fields), 0) == "{\n" + FieldsToString(fields, 1) + "}"
  {
    assert Tabs(0) == "";
  }

  /** Scanning a printed document yields the document's tokens. */
  lemma {:induction false} LexDocument(fields: seq<Value>)
    requires PrintableFields(fields)
    ensures Lex(ToString(Group(RootName, fields), 0)) == Success(DocumentTokens(fields))
  {
    var f := FieldsToString(fields, 1);
    var s := ToString(Group(RootName, fields), 0);
    DocumentLayout(fields);
    var b := 2 + |f|;
    assert s[0] == '{' && s[1] == '\n' && s[b] == '}' && |s| == b + 1;
    assert At(s, 2, f) by {
      assert s[2..b] == f;
    }
    var open, close := [Token(LeftBrace, "{")], [Token(RightBrace, "}")];
    LexPunctuation(s, 0, Token(LeftBrace, "{"), 1);
    LexSpace(s, 1, 2);
    LexFields(s, 2, 1, fields, b);
    LexPunctuation(s, b, Token(RightBrace, "}"), b + 1);
    LexesToChain(s, 0, open, 1, [], 2, open);
    LexesToChain(s, 0, open, 2, FieldsTokens(fields), b, open + FieldsTokens(fields));
    LexesToChain(s, 0, open + FieldsTokens(fields), b, close, b + 1, DocumentTokens(fields));
    assert DocumentTokens(fields) + [] == DocumentTokens(fields);
  }

  /** Print, scan, parse: the tree comes back unchanged. */
  lemma PrintScanParse(fields: seq<Value>)
    requires PrintableFields(fields)
    ensures Scanned(ToString(Group(RootName, fields), 0)) == DocumentTokens(fields)
    ensures Parse(Scanned(ToString(Group(RootName, fields), 0))) == Success(Group(RootName, fields))
  {
    LexDocument(fields);
    ParseDocument(fields);
  }
}

=== FILE: wrappers.dfy ===
/** Failure-carrying result types shared by the lexer and the parser. */
module Wrappers {

  /** An optional value, used where the source returns `std::optional` or may throw. */
  datatype Option<+T> = None | Some(value: T)

  /** A value or the reason it could not be produced. */
  datatype Result<+T, +E> = Success(value: T) | Failure(error: E)
}
